=== FILE: README.md ===
# Laboratory orders backend — a verified model

This project models the decision logic of a small REST backend for
laboratory orders. Users register and log in and receive a signed token. A
request gate checks that token before every order route. An authenticated
user creates orders, lists their own orders with a state filter and
pagination, and advances an order along the fixed workflow
`CREATED → ANALYSIS → COMPLETED`. Errors are turned into JSON envelopes with
HTTP status codes.

Modules, one per source file, plus shared helpers:

- `Types` (`types.dfy`): the enumerations, the order, service and user
  records, pagination metadata, and the `AppError` of `src/types/index.ts`.
- `OrderModel` (`order_model.dfy`): the order schema. This covers the
  required and trimmed strings, the non-empty services list, non-negative
  values and the enum checks. It also covers the defaults, the `totalValue`
  fold, the pre-save guard on the total, and the JSON forms of an order.
- `OrderController` (`order_controller.dfy`): the transition table, the
  owner-scoped lookup, the listing (filter, newest-first sort, skip and
  limit, count, page count), and the class `OrderStore`. Its methods
  `CreateOrder` and `AdvanceOrder` update the stored orders in place.
- `AuthMiddleware` (`auth_middleware.dfy`): the bearer header check and
  token extraction. It also has the classification of verification
  failures into 401 messages, the user lookup, and the class `AuthRequest`,
  whose `Authenticate` fills in `userId`, `user` and `token`.
- `AuthController` (`auth_controller.dfy`): the class `UserStore` with its
  `Register` method, and `Login` as a read-only function.
- `AppErrors` (`app_error.dfy`): the `AppError` class of
  `src/utils/appError.ts` and its three helpers.
- `App` (`app.dfy`): the global error handler and the unmatched-route 404.
- `OrderRoutes` (`order_routes.dfy`): the gate composed in front of each
  order handler.
- Helpers:
  - `JsStrings`: ECMAScript `trim`, `split(' ')`, `startsWith`, decimal and
    hexadecimal rendering.
  - `Http`: the response envelope and JSON values.
  - `Wrappers`: `Option` and `Result`.

The outside world enters as parameters:

- `now` stands for the creation clock.
- `verify(token, secret)` stands for JWT verification and returns the claims
  or the thrown error's name and message.
- `sign(claims, secret, expiresIn)` stands for JWT signing.
- `hash(password)` and `compare(password, digest)` stand for bcrypt.
- The secret and the development flag are explicit arguments, not read
  from the environment.

Behaviours of the code worth noting:

- An order whose total is not positive passes schema validation. It is then
  refused by the pre-save hook with a plain `Error`, so `createOrder`
  answers 500 rather than the 400 of a validation failure.
- A missing signing secret is not fatal. The gate answers 401 with the
  thrown message, `register` answers 500 after the user has been stored,
  and `login` answers 500.
- A service's `status` comes from the request body. An unknown value is a
  schema violation; an absent one defaults to `PENDING`.
- `getOrders` returns raw documents (`.lean()`): they carry `_id` and
  `__v` and have neither `id` nor `totalValue`. Created and advanced
  orders are serialised with `toJSON`, which carries `id` and `totalValue`
  and omits `_id` and `__v`.

## Model

| member | source | states |
|---|---|---|
| Types.ParseState | src/types/index.ts:18 | exactly the three wire names CREATED, ANALYSIS and COMPLETED parse, each back to the state it names; the listing's state filter matches through it |
| Types.ParseServiceStatus | src/types/index.ts:15 | exactly PENDING and DONE parse, each back to the status it names |
| Types.FindUserBy | src/middlewares/auth.ts:60 | a user lookup by id or by email returns a stored user with that key, or reports that none exists |
| Types.NewAppError | src/types/index.ts:56-65 | the message is kept, the name is "AppError", and the status is the given one or 400 when none is given |
| JsStrings.TrimIsCore | src/models/Order.ts:5-9 | `trim` cuts a string into leading whitespace, a core with no whitespace at either end, and trailing whitespace |
| JsStrings.TrimEmptyIffBlank | src/models/Order.ts:24-38 | a trimmed string is empty exactly when the original is all whitespace, so a required trimmed path refuses blank strings |
| JsStrings.TrimIdempotent | src/models/Order.ts:24-38 | trimming a stored value again changes nothing |
| JsStrings.TrimKeepsTrimmed | src/models/Order.ts:5-9 | a string with no whitespace at either end is stored unchanged |
| JsStrings.TrimStartSpec | src/models/Order.ts:5-9 | dropping leading whitespace keeps the suffix from the first non-whitespace character |
| JsStrings.TrimEndSpec | src/models/Order.ts:5-9 | dropping trailing whitespace keeps the prefix up to the last non-whitespace character |
| JsStrings.Split | src/middlewares/auth.ts:46 | `split(' ')` gives at least one field and no field contains a space |
| JsStrings.JoinSplit | src/middlewares/auth.ts:46 | joining the fields of a split with single spaces gives the header back |
| JsStrings.SplitJoin | src/middlewares/auth.ts:46 | splitting space-free fields joined by spaces gives the fields back |
| JsStrings.SplitAfterField | src/middlewares/auth.ts:46 | a space-free field followed by a space splits off as the first field |
| JsStrings.SplitNoSpace | src/middlewares/auth.ts:46 | a string without a space splits into itself alone |
| JsStrings.FirstField | src/middlewares/auth.ts:46 | the first field of a split is the prefix up to the first space, or the whole string |
| JsStrings.Hex | src/models/Order.ts:70 | an identifier renders as exactly `width` lower-case hexadecimal digits |
| JsStrings.ParseHexOfHex | src/models/Order.ts:70 | reading the hexadecimal digits back gives the identifier, for identifiers that fit the width |
| OrderModel.TotalValue | src/models/Order.ts:79-81 | the `totalValue` virtual is the sum of the service values |
| OrderModel.FoldIsSum | src/models/Order.ts:79-81 | the left-to-right `reduce` adds exactly the sum of the values to its start |
| OrderModel.TotalAppend | src/models/Order.ts:79-81 | appending a service adds its value to `totalValue` |
| OrderModel.TotalExample | src/models/Order.ts:79-81 | services worth 80, 25 and 45 total 150 |
| OrderModel.TotalPositiveIff | src/models/Order.ts:83-92 | with no negative value the total is at least 0, and positive exactly when some value is positive |
| OrderModel.ServiceViolations | src/models/Order.ts:4-20 | a service has no failing path exactly when its name is not blank, its value is present and not negative, and its status is absent or one of the two names |
| OrderModel.AllServiceViolations | src/models/Order.ts:49-56 | the services report no failing path exactly when every service is acceptable |
| OrderModel.Violations | src/models/Order.ts:22-62 | an order reports no failing path exactly when the three strings are not blank, the services list is non-empty and every service is acceptable |
| OrderModel.Create | src/models/Order.ts:22-92 | creation succeeds exactly when the schema passes and the total is positive. A schema failure lists at least one path. A passing schema with a total ≤ 0 fails with "Valor total do pedido deve ser maior que zero". A created order is valid, has state CREATED, status ACTIVE, the caller as owner, trimmed strings, the services one for one, PENDING where no status was given, and a status the client sent stored as given |
| OrderModel.CreatedOrderIsValid | src/models/Order.ts:22-92 | what `Create` stores satisfies every schema rule and the positive-total guard |
| OrderModel.AdvanceKeepsValid | src/models/Order.ts:83-92 | changing only the state keeps a stored order valid, so the re-validation on save in an advance passes |
| OrderModel.BlankLabRejected | src/models/Order.ts:24-28 | a blank `lab` is refused, and "Laboratório é obrigatório" is the first reported path |
| OrderModel.EmptyServicesRejected | src/models/Order.ts:49-56 | an empty services list is refused with "Pedido deve conter pelo menos um serviço" |
| OrderModel.NegativeValueRejected | src/models/Order.ts:10-14 | a negative service value is refused with "Valor não pode ser negativo" on `services.<k>.value` |
| OrderModel.AllServiceViolationsContain | src/models/Order.ts:4-20 | a failing path of service k is among the failing paths of the whole list |
| OrderModel.ZeroValueAllowed | src/models/Order.ts:10-14 | a value of 0 passes a service's own rules |
| OrderModel.AllZeroFailsHook | src/models/Order.ts:83-92 | services that pass the schema but are all worth 0 are stopped by the pre-save guard |
| OrderModel.IdStringInjective | src/models/Order.ts:70 | distinct identifiers serialise to distinct `id` strings |
| OrderModel.ServicesJson | src/models/Order.ts:65-74 | each service serialises in place, one for one |
| OrderModel.LeanDocument | src/models/Order.ts:22-74 | a plain (`.lean()`) document carries `_id` (the id's string) and `__v` = 0, and neither virtual `id` nor `totalValue` |
| OrderModel.ToJSON | src/models/Order.ts:65-81 | the serialised order has `id` = the string of `_id` and `totalValue` = the sum of the service values, omits `_id` and `__v`, and keeps every other stored field |
| OrderController.Next | src/controllers/orderController.ts:175-182 | the table is total: only COMPLETED has no next state, and every step moves exactly one position forward |
| OrderController.FindOwned | src/controllers/orderController.ts:159-163 | the lookup finds an order with that id, owned by the caller and ACTIVE, or reports that none exists |
| OrderController.AdvanceEffect | src/controllers/orderController.ts:145-202 | an advance keeps the store's size. Each order stays or takes exactly the table's next step, and only the order the lookup finds (that id, the caller's, ACTIVE) may change. The answer is 401 exactly when no user is attached, 404 exactly when the lookup finds nothing, 400 exactly when the found order is COMPLETED, and 200 exactly when something changed, answering "Pedido avançado para" the new state with the advanced order serialised |
| OrderController.AdvanceTimes | src/controllers/orderController.ts:145-202 | repeated advances keep the store's size |
| OrderController.AdvanceKeepsLookup | src/controllers/orderController.ts:159-195 | an advance never changes which order a later lookup finds |
| OrderController.CompletedStaysFinal | src/controllers/orderController.ts:185-191 | once COMPLETED, any number of further advances leaves the store unchanged, and each answers 400 "Pedido já está no estado final (COMPLETED)" |
| OrderController.CreatedToCompleted | src/controllers/orderController.ts:175-195 | from CREATED, one advance gives ANALYSIS, two give COMPLETED, and a third answers 400 |
| OrderController.AdvanceRunMonotone | src/controllers/orderController.ts:175-195 | along any run of advances, by any callers on any ids, no order's state ever moves backward |
| OrderController.AdvanceRunSparesOthers | src/controllers/orderController.ts:159-195 | a run of advances made by other callers leaves every order of a user exactly as it was |
| OrderController.Select | src/controllers/orderController.ts:87-95 | the filter keeps exactly the caller's ACTIVE orders in the requested state, each as often as it is stored |
| OrderController.InsertSorted | src/controllers/orderController.ts:106 | inserting into a newest-first list keeps it newest first |
| OrderController.InsertCount | src/controllers/orderController.ts:106 | insertion adds exactly that order and loses none |
| OrderController.SortNewestFirst | src/controllers/orderController.ts:106 | the sort yields the same orders, most recent first |
| OrderController.CeilDiv | src/controllers/orderController.ts:125 | `Math.ceil(total / limit)` is the least page count whose pages cover the total, and 0 exactly when the total is 0 |
| OrderController.TotalPagesExamples | src/controllers/orderController.ts:125 | total 25 with limit 10 gives 3 pages, and total 0 gives 0 |
| OrderController.Skip | src/controllers/orderController.ts:100 | the offset of a page is `(page - 1) * limit` and is never negative |
| OrderController.Window | src/controllers/orderController.ts:107-108 | skip then limit returns at most `limit` items, starting at the offset, in order, and nothing past the end |
| OrderController.QueryOrders | src/controllers/orderController.ts:72-128 | a page holds only stored orders that match the filter, newest first, at most `limit` of them. `total` counts every match ignoring pagination. `page` and `limit` are echoed. `totalPages` is `CeilDiv(total, limit)`, and the items are exactly the skip/limit window of the sorted selection, so a last page holds only the matches that remain. An empty selection has 0 pages and no items |
| OrderController.WindowOfSelection | src/controllers/orderController.ts:105-109 | every window of the sorted selection holds only matching stored orders, newest first |
| OrderController.PagesCoverSelection | src/controllers/orderController.ts:98-108 | item i of page p is match number `(p - 1) * limit + i` of the sorted selection, so every match appears on some page |
| OrderController.PageOf | src/controllers/orderController.ts:98-100 | match k sits on page `k / limit + 1` at index `k % limit` |
| OrderController.PagePastEndEmpty | src/controllers/orderController.ts:98-125 | a page beyond `totalPages` is empty |
| OrderController.PastLastPage | src/controllers/orderController.ts:100-125 | the offset of a page beyond `totalPages` is at or past the total |
| OrderController.GetOrders | src/controllers/orderController.ts:72-128 | without an authenticated user the answer is 401 "Usuário não autenticado". Otherwise it is 200 "Pedidos listados com sucesso" carrying the lean documents of the caller's page and its pagination metadata, as `QueryOrders` gives them |
| OrderController.LeanDocuments | src/controllers/orderController.ts:105-109 | the listed documents are the page's orders, one for one and in order, each a plain document with `_id` and `__v` and without `id` or `totalValue` |
| OrderController.ListingIsOwnerScoped | src/controllers/orderController.ts:87-95 | an order of another user, or a deleted one, is never selected or listed |
| OrderController.OrderStore.constructor | src/controllers/orderController.ts:13 | the store starts empty |
| OrderController.OrderStore.CreateOrder | src/controllers/orderController.ts:20-64 | with no user: 401 and nothing stored. A schema failure answers 400 with the composed ValidationError message, and a failed total guard answers 500; neither stores anything. Otherwise the created order, owned by the caller, is appended and the answer is 201 with its serialised form. The store invariant is kept |
| OrderController.OrderStore.AdvanceOrder | src/controllers/orderController.ts:145-202 | the in-place update has exactly the effect `AdvanceEffect` specifies: only the caller's ACTIVE order with that id may change, by one step of the table; 401, 404 and 400 answer exactly a missing user, a failed lookup and a COMPLETED order. The store invariant is kept |
| OrderController.ScenarioCreates | src/controllers/orderController.ts:39-45 | an order with services worth 80 and 25 is accepted with total 105, state CREATED and PENDING services |
| AuthMiddleware.BearerSplit | src/middlewares/auth.ts:46 | a header with the bearer prefix splits into "Bearer" followed by the fields of the rest |
| AuthMiddleware.BearerToken | src/middlewares/auth.ts:46 | the token is what follows "Bearer " up to the next space, and holds no space |
| AuthMiddleware.BearerTokenRoundTrip | src/middlewares/auth.ts:37-46 | a space-free token sent as "Bearer " + token passes the prefix check and is read back unchanged |
| AuthMiddleware.Classify | src/middlewares/auth.ts:82-100 | JsonWebTokenError gives "Token inválido", TokenExpiredError gives "Token expirado", and any other error gives its own message or "Erro de autenticação" when that message is empty |
| AuthMiddleware.FindUser | src/middlewares/auth.ts:60 | the lookup returns a stored user with that id, or reports that none exists |
| AuthMiddleware.Decide | src/middlewares/auth.ts:27-102 | a request gets through exactly when the header has the prefix, a secret is set, the token verifies and its user exists. It then carries that token and that user |
| AuthMiddleware.MissingBearerRejected | src/middlewares/auth.ts:37-43 | a missing header, or one without "Bearer ", is refused with "Token não fornecido" |
| AuthMiddleware.VerifyFailuresClassified | src/middlewares/auth.ts:57-93 | a malformed or badly signed token gives "Token inválido"; an expired one gives "Token expirado" |
| AuthMiddleware.VanishedUserRejected | src/middlewares/auth.ts:60-69 | a valid token whose user no longer exists is refused with "Usuário não encontrado" |
| AuthMiddleware.MissingSecretRejected | src/middlewares/auth.ts:49-54 | with no secret configured, the thrown message "JWT_SECRET não configurado" is the answer |
| AuthMiddleware.HonestTokenAdmitted | src/middlewares/auth.ts:37-78 | a token the verifier accepts for a stored user gets through as that user |
| AuthMiddleware.AuthRequest.constructor | src/types/index.ts:34-38 | a fresh request has no user, user id or token |
| AuthMiddleware.AuthRequest.Authenticate | src/middlewares/auth.ts:27-102 | every refusal answers 401 with the decided message, does not call `next` and attaches nothing. Success attaches `user`, `userId` and `token` and calls `next` |
| AuthController.FindByEmail | src/controllers/authController.ts:11-57 | the lookup returns a stored user with that email, or reports that none exists |
| AuthController.Login | src/controllers/authController.ts:53-106 | login answers only 200, 401 or 500 |
| AuthController.LoginOkIff | src/controllers/authController.ts:57-98 | login answers 200 exactly when the email is known, `compare` accepts the password and a secret is set. It then returns `{id, email}` and a token signed over `{userId, email}` for "24h". A known email with an accepted password but no secret answers 500 "Erro ao fazer login" |
| AuthController.UnknownEmailLooksLikeWrongPassword | src/controllers/authController.ts:58-75 | an unknown email and a wrong password get the identical 401 "Credenciais inválidas" |
| AuthController.UserStore.constructor | src/controllers/authController.ts:6 | the user store starts empty |
| AuthController.UserStore.Register | src/controllers/authController.ts:7-51 | a taken email answers 400 "Email já cadastrado" and stores nothing. Otherwise exactly one user, with the hashed password, is appended before the secret is checked. A missing secret then answers 500 "Erro ao registrar usuário" with the user kept; otherwise the answer is 201 with `{id, email}` and the signed token. Emails stay unique |
| AuthController.RegisterThenLogin | src/controllers/authController.ts:20-98 | after a register, a login with the same password finds that user and succeeds |
| AuthController.FindByEmailUnique | src/controllers/authController.ts:11-57 | with unique emails, the lookup finds the one user holding that email |
| AppErrors.NewOperationalError | src/utils/appError.ts:22-31 | the message is kept, `isOperational` is true, the name is "AppError", and the status is the given one or 400 |
| AppErrors.CreateValidationError | src/utils/appError.ts:39-41 | status 400 with the given message |
| AppErrors.CreateAuthError | src/utils/appError.ts:48-50 | status 401 with the given message |
| AppErrors.CreateNotFoundError | src/utils/appError.ts:57-59 | status 404 with the given message |
| App.DevOnly | src/app.ts:78-96 | a detail field is present exactly in development, and then holds the value |
| App.HandleErrorAsWritten | src/app.ts:65-98 | every answer has `success: false` and no stack outside development. An error of the src/types/index.ts class answers with its own status and message; anything else answers 400 or 500 |
| App.HandleError | src/app.ts:65-98 | as above, but errors of both `AppError` classes keep their own status and message; other errors are answered as the code does |
| App.ValidationErrorIs400 | src/app.ts:82-88 | an error named ValidationError answers 400 "Erro de validação" with its message under `error` |
| App.OtherErrorIs500 | src/app.ts:90-97 | any other error answers 500 "Erro interno do servidor". Its message and stack appear exactly in development |
| App.DefaultAppErrorIs400 | src/app.ts:74-80 | an application error built without a status answers 400 with its message |
| App.HelperErrorsBecome500 | src/app.ts:74-97 | as written, errors from the three utility helpers answer 500 "Erro interno do servidor" |
| App.HelperErrorsKeepStatus | src/app.ts:74-80 | with both classes recognised, the helpers' errors answer 400, 401 and 404 with their messages |
| App.RouteNotFound | src/app.ts:53-59 | an unmatched route answers 404 with `success: false`, "Rota não encontrada: " followed by exactly the URL, and the suggested root `protocol://host` |
| OrderRoutes.CreateOrderRoute | src/routes/orders.ts:17-26 | a refused gate answers 401 and stores nothing. Otherwise the order is created as the user the gate resolved: a success appends it (201), a failure stores nothing (400 or 500) |
| OrderRoutes.ListOrdersRoute | src/routes/orders.ts:17-35 | a refused gate answers 401; otherwise the listing runs for the resolved user and answers 200 |
| OrderRoutes.AdvanceOrderRoute | src/routes/orders.ts:17-44 | a refused gate answers 401 and changes nothing. Otherwise the advance runs for the resolved user and answers 200, 400 or 404. Orders of other users never change |

## Left out

- The database: connection, query execution, and store failures. This drops every `catch` branch that only store errors reach: a failing `User.findById` reaching the request gate's catch block (src/middlewares/auth.ts:79-100), which answers 401 with the store error's message (the missing secret and the `verify` failures that reach the same block are modelled); `getOrders`' 500 "Erro ao listar pedidos", the 500 and 400 fallbacks of `createOrder` and `advanceOrder` for other errors, and the 500s of `register` and `login` other than the missing secret.
- `CastError` on a malformed order id (404 in `advanceOrder`). Identifiers are well-formed values here.
- `timestamps`: `updatedAt` is not modelled, and `createdAt` is a natural-number stamp given as `now`.
- The subdocument `_id` of each service, and the `__v` counter beyond its initial 0.
- The concurrent `find` and `countDocuments` of `getOrders`, and the race between the email check and the insert in `register`. Both are modelled as reads over one snapshot of the store.
- The User model (its email and password rules and the hashing hook) is not part of this model. `hash` is a parameter, and `Register` takes the email and password as given.
- bcrypt and JWT internals, and token expiry in time. They are the parameters `hash`, `compare`, `sign` and `verify`.
- Express routing, CORS, body parsing, logging, and the health and root endpoints.
- Casting of request values whose JSON type differs from the schema's: service values are integers, and fractional or non-numeric values are not modelled; `lab`, `patient`, `customer` and a service `name` are strings or absent, so a number (which Mongoose casts to a string) or an object (a cast error reported as a ValidationError) cannot be represented.
- `parseInt` of `page` and `limit`. They arrive parsed.
- SortNewestFirst: orders with equal `createdAt` are kept in storage order, and PagesCoverSelection relies on that fixed order. The database leaves the order of ties unspecified, and it may differ between the separate queries for different pages, so a tied order could be skipped or shown twice across pages; the model does not capture that.
- OrderController.QueryOrders: requires `page ≥ 1` and `limit ≥ 1`, because the code does not guard 0, negative or NaN values there.
- OrderController.GetOrders: requires `page ≥ 1` and `limit ≥ 1`, because the code does not guard 0, negative or NaN values there.
- OrderRoutes.ListOrdersRoute: requires `page ≥ 1` and `limit ≥ 1`, because the code does not guard 0, negative or NaN values there.
- A `services` that is null or not an array, which fails the array's `required` validator and answers 400 "Serviços são obrigatórios": services is a sequence here, so such a body cannot be represented. An absent `services` is the empty array and fails the length validator instead.
- OrderModel.Violations: reports the failing paths in schema order; Mongoose's own ordering of the paths inside the composed ValidationError message is not modelled beyond that.
- App.HandleErrorAsWritten: HTTP status codes outside what Node accepts (100 to 999) would make `res.status` throw; statuses are plain naturals here.
- AuthController.Login: never changing the user store holds by construction, because it is a function of the store rather than a method on it.

## Findings

| source | as written | input that shows it | evidently intended | confidence | as-written member | corrected member |
|---|---|---|---|---|---|---|
| src/app.ts:74 | the handler tests `instanceof AppError` against the class of src/types/index.ts, while `createValidationError`, `createAuthError` and `createNotFoundError` (src/utils/appError.ts:39-59) build instances of a different class also named "AppError" | an error from `createNotFoundError("Pedido não encontrado")` reaching the handler answers 500 "Erro interno do servidor" | such an error answers with its own status (404) and message | medium, not executed | App.HandleErrorAsWritten, App.HelperErrorsBecome500 | App.HandleError, App.HelperErrorsKeepStatus |

=== FILE: app.dfy ===
/**
 * The two fallbacks of src/app.ts: the catch-all 404 for unmatched routes
 * and the global error handler that turns a thrown error into a response.
 *
 * The handler recognises application errors with `instanceof` against the
 * `AppError` of src/types/index.ts. Errors built by the helpers of
 * src/utils/appError.ts are instances of another class of the same name, so
 * the handler as written sends them to the 500 branch; `HandleErrorAsWritten`
 * models that, and `HandleError` is the handler that honours both classes.
 */
module App {
  import opened Wrappers
  import opened Types
  import opened Http
  import opened AppErrors

  /** What can reach the error handler. */
  datatype Thrown =
    | TypedAppError(error: AppError, stack: string)            // the class in src/types/index.ts
    | UtilityAppError(operational: OperationalError, stack: string)  // the class in src/utils/appError.ts
    | OtherError(name: string, message: string, stack: string) // any other Error
  {
    function Name(): string {
      match this
      case TypedAppError(e, _) => e.Name()
      case UtilityAppError(e, _) => e.Name()
      case OtherError(n, _, _) => n
    }

    function Message(): string {
      match this
      case TypedAppError(e, _) => e.message
      case UtilityAppError(e, _) => e.message
      case OtherError(_, m, _) => m
    }
  }

  const ValidationFailed: string := "Erro de validação"
  const InternalError: string := "Erro interno do servidor"
  const RouteNotFoundPrefix: string := "Rota não encontrada: "

  /** `...(process.env.NODE_ENV === 'development' && {field})`: present only in development. */
  function DevOnly(development: bool, value: string): (r: Option<string>)
    ensures r.Some? <==> development
    ensures r.Some? ==> r.value == value
  {
    if development then Some(value) else None
  }

  /** A response that carries an error, with `success: false` and no data. */
  function ErrorResponse(status: nat, message: string, error: Option<string>, stack: Option<string>): Response {
    Response(status, Envelope(false, message, None, error, stack, None))
  }

  /** The handler's final branch, shared by both versions. */
  function Unexpected(err: Thrown, development: bool): Response {
    if err.Name() == "ValidationError" then
      ErrorResponse(400, ValidationFailed, Some(err.Message()), None)
    else
      ErrorResponse(500, InternalError, DevOnly(development, err.Message()), DevOnly(development, err.stack))
  }

  /** The error handler of src/app.ts as written: only the src/types/index.ts class is an application error. */
  function HandleErrorAsWritten(err: Thrown, development: bool): (r: Response)
    ensures !r.body.success && r.body.data.None? && r.body.suggested.None?
    ensures !development ==> r.body.stack.None?
    ensures err.TypedAppError? ==> r.status == err.error.statusCode && r.body.message == err.error.message
    ensures !err.TypedAppError? ==> r.status in {400, 500}
  {
    if err.TypedAppError? then
      ErrorResponse(err.error.statusCode, err.error.message, None, DevOnly(development, err.stack))
    else Unexpected(err, development)
  }

  /** The error handler with both `AppError` classes recognised. */
  function HandleError(err: Thrown, development: bool): (r: Response)
    ensures !r.body.success && r.body.data.None? && r.body.suggested.None?
    ensures !development ==> r.body.stack.None?
    ensures err.TypedAppError? ==> r.status == err.error.statusCode && r.body.message == err.error.message
    ensures err.UtilityAppError? ==> r.status == err.operational.statusCode && r.body.message == err.operational.message
    ensures err.OtherError? ==> r == HandleErrorAsWritten(err, development)
  {
    match err
    case TypedAppError(e, stack) => ErrorResponse(e.statusCode, e.message, None, DevOnly(development, stack))
    case UtilityAppError(e, stack) => ErrorResponse(e.statusCode, e.message, None, DevOnly(development, stack))
    case OtherError(_, _, _) => Unexpected(err, development)
  }

  /** An error named "ValidationError" is a 400 that reports its own message under `error`. */
  lemma ValidationErrorIs400(message: string, stack: string, development: bool)
    ensures var r := HandleErrorAsWritten(OtherError("ValidationError", message, stack), development);
      r.status == 400 && r.body.message == ValidationFailed && r.body.error == Some(message) && r.body.stack.None?
  {
  }

  /** Any other error is a 500; its message and stack are shown only in development. */
  lemma OtherErrorIs500(name: string, message: string, stack: string, development: bool)
    requires name != "ValidationError"
    ensures var r := HandleErrorAsWritten(OtherError(name, message, stack), development);
      && r.status == 500 && r.body.message == InternalError
      && (r.body.error.Some? <==> development) && (r.body.stack.Some? <==> development)
      && (development ==> r.body.error == Some(message) && r.body.stack == Some(stack))
  {
  }

  /** An application error built without a status answers 400 with its message. */
  lemma DefaultAppErrorIs400(message: string, stack: string, development: bool)
    ensures var r := HandleErrorAsWritten(TypedAppError(NewAppError(message, None), stack), development);
      r.status == 400 && r.body.message == message
  {
  }

  /**
   * As written, an error made by `createValidationError`, `createAuthError`
   * or `createNotFoundError` is answered 500 "Erro interno do servidor".
   */
  lemma HelperErrorsBecome500(message: string, stack: string, development: bool)
    ensures HandleErrorAsWritten(UtilityAppError(CreateValidationError(message), stack), development).status == 500
    ensures HandleErrorAsWritten(UtilityAppError(CreateAuthError(message), stack), development).status == 500
    ensures HandleErrorAsWritten(UtilityAppError(CreateNotFoundError(message), stack), development).status == 500
    ensures HandleErrorAsWritten(UtilityAppError(CreateNotFoundError(message), stack), development).body.message
            == InternalError
  {
    assert "AppError" != "ValidationError";
  }

  /** With both classes recognised, the helpers' errors keep their 400, 401 and 404. */
  lemma HelperErrorsKeepStatus(message: string, stack: string, development: bool)
    ensures HandleError(UtilityAppError(CreateValidationError(message), stack), development).status == 400
    ensures HandleError(UtilityAppError(CreateAuthError(message), stack), development).status == 401
    ensures HandleError(UtilityAppError(CreateNotFoundError(message), stack), development).status == 404
    ensures HandleError(UtilityAppError(CreateNotFoundError(message), stack), development).body.message == message
  {
  }

  /** The catch-all route: 404 naming the requested URL and suggesting the server's root. */
  function RouteNotFound(originalUrl: string, protocol: string, host: string): (r: Response)
    ensures r.status == 404 && !r.body.success && r.body.data.None?
    ensures |r.body.message| >= |RouteNotFoundPrefix|
    ensures r.body.message[..|RouteNotFoundPrefix|] == RouteNotFoundPrefix
    ensures r.body.message[|RouteNotFoundPrefix|..] == originalUrl
    ensures r.body.suggested == Some(protocol + "://" + host)
  {
    Response(404, Envelope(false, RouteNotFoundPrefix + originalUrl, None, None, None, Some(protocol + "://" + host)))
  }
}

=== FILE: app_error.dfy ===
/**
 * The operational error class of src/utils/appError.ts and its three
 * shorthand constructors. This is a different class from the `AppError`
 * of src/types/index.ts (module Types), although both are named "AppError".
 */
module AppErrors {
  import opened Wrappers

  /** An error the application raises on purpose, with the HTTP status to answer. */
  datatype OperationalError = OperationalError(message: string, statusCode: nat, isOperational: bool) {
    function Name(): string { "AppError" }
  }

  /** `new AppError(message, statusCode = 400)`. */
  function NewOperationalError(message: string, statusCode: Option<nat>): (e: OperationalError)
    ensures e.message == message && e.isOperational && e.Name() == "AppError"
    ensures e.statusCode == (if statusCode.Some? then statusCode.value else 400)
  {
    OperationalError(message, statusCode.GetOr(400), true)
  }

  /** `createValidationError(message)`: a 400. */
  function CreateValidationError(message: string): (e: OperationalError)
    ensures e == NewOperationalError(message, None)
    ensures e.statusCode == 400 && e.message == message && e.isOperational
  {
    NewOperationalError(message, Some(400))
  }

  /** `createAuthError(message)`: a 401. */
  function CreateAuthError(message: string): (e: OperationalError)
    ensures e.statusCode == 401 && e.message == message && e.isOperational && e.Name() == "AppError"
  {
    NewOperationalError(message, Some(401))
  }

  /** `createNotFoundError(message)`: a 404. */
  function CreateNotFoundError(message: string): (e: OperationalError)
    ensures e.statusCode == 404 && e.message == message && e.isOperational && e.Name() == "AppError"
  {
    NewOperationalError(message, Some(404))
  }
}

=== FILE: auth_controller.dfy ===
/**
 * Registration and login (src/controllers/authController.ts) over a user
 * store keyed by email. Password hashing, the hash comparison and token
 * signing are parameters: `hash(password)`, `compare(password, digest)` and
 * `sign(claims, secret, expiresIn)`.
 */
module AuthController {
  import opened Wrappers
  import opened Types
  import opened Http
  import opened AuthMiddleware

  type Hasher = string -> string
  type Comparer = (string, string) -> bool
  type Signer = (TokenClaims, string, string) -> string

  const EmailTaken: string := "Email já cadastrado"
  const Registered: string := "Usuário registrado com sucesso"
  const RegisterFailed: string := "Erro ao registrar usuário"
  const BadCredentials: string := "Credenciais inválidas"
  const LoggedIn: string := "Login realizado com sucesso"
  const LoginFailed: string := "Erro ao fazer login"

  /** Both operations sign `{userId, email}` for 24 hours. */
  const TokenLifetime: string := "24h"

  /** `User.findOne({email})`. */
  function FindByEmail(users: seq<User>, email: string): (r: Option<User>)
    ensures r.Some? ==> r.value in users && r.value.email == email
    ensures r.None? ==> forall u :: u in users ==> u.email != email
  {
    FindUserBy(users, ByEmail(email))
  }

  /** The token handed out for a user. */
  function TokenFor(u: User, secret: string, sign: Signer): string {
    sign(TokenClaims(u.id, u.email), secret, TokenLifetime)
  }

  /** The body of a successful register or login: `{user: {id, email}, token}`, never the password. */
  function Session(u: User, secret: string, sign: Signer): Data {
    UserData(u.id, u.email, TokenFor(u, secret, sign))
  }

  /**
   * `login`: an unknown email and a wrong password get the same 401; a missing
   * secret is a 500; otherwise 200 with the user and a fresh token.
   */
  function Login(users: seq<User>, email: string, password: string, compare: Comparer,
                 secret: Option<string>, sign: Signer): (resp: Response)
    ensures resp.status in {200, 401, 500}
  {
    match FindByEmail(users, email)
    case None => Fail(401, BadCredentials)
    case Some(u) =>
      if !compare(password, u.digest) then Fail(401, BadCredentials)
      else if !SecretSet(secret) then Fail(500, LoginFailed)
      else Ok(200, LoggedIn, Session(u, secret.value, sign))
  }

  /** Login answers 200 exactly when the email is known, the password matches and a secret is set. */
  lemma LoginOkIff(users: seq<User>, email: string, password: string, compare: Comparer,
                   secret: Option<string>, sign: Signer)
    ensures var resp := Login(users, email, password, compare, secret, sign);
      resp.status == 200 <==>
        && FindByEmail(users, email).Some?
        && compare(password, FindByEmail(users, email).value.digest)
        && SecretSet(secret)
    ensures var resp := Login(users, email, password, compare, secret, sign);
      resp.status == 200 ==>
        var u := FindByEmail(users, email).value;
        resp == Ok(200, LoggedIn, UserData(u.id, email, sign(TokenClaims(u.id, email), secret.value, TokenLifetime)))
    ensures FindByEmail(users, email).Some? && compare(password, FindByEmail(users, email).value.digest)
            && !SecretSet(secret) ==>
              Login(users, email, password, compare, secret, sign) == Fail(500, LoginFailed)
  {
  }

  /** An unknown email and a wrong password cannot be told apart from the response. */
  lemma UnknownEmailLooksLikeWrongPassword(users: seq<User>, unknown: string, known: string, password: string,
                                           compare: Comparer, secret: Option<string>, sign: Signer)
    requires forall u :: u in users ==> u.email != unknown
    requires FindByEmail(users, known).Some?
    requires !compare(password, FindByEmail(users, known).value.digest)
    ensures Login(users, unknown, password, compare, secret, sign)
         == Login(users, known, password, compare, secret, sign)
         == Fail(401, BadCredentials)
  {
  }

  /** The registered users. Emails are unique and ids are handed out in increasing order. */
  class UserStore {
    var users: seq<User>
    var nextId: nat

    ghost predicate Valid()
      reads this
    {
      && (forall i :: 0 <= i < |users| ==> users[i].id.n < nextId)
      && (forall i, j :: 0 <= i < j < |users| ==> users[i].id.n < users[j].id.n)
      && (forall i, j :: 0 <= i < j < |users| ==> users[i].email != users[j].email)
    }

    constructor()
      ensures Valid() && users == [] && nextId == 0
    {
      users := [];
      nextId := 0;
    }

    /**
     * `register`: a taken email is refused with 400 and nothing stored.
     * Otherwise the user is stored first, and only then is the secret
     * checked, so a missing secret answers 500 with the user already kept.
     */
    method Register(email: string, password: string, hash: Hasher, secret: Option<string>, sign: Signer)
      returns (resp: Response)
      requires Valid()
      modifies this
      ensures Valid()
      ensures FindByEmail(old(users), email).Some? ==>
        resp == Fail(400, EmailTaken) && users == old(users) && nextId == old(nextId)
      ensures FindByEmail(old(users), email).None? ==>
        var u := User(ObjectId(old(nextId)), email, hash(password));
        && users == old(users) + [u] && nextId == old(nextId) + 1
        && resp == (if SecretSet(secret) then Ok(201, Registered, Session(u, secret.value, sign))
                    else Fail(500, RegisterFailed))
    {
      var existing := FindByEmail(users, email);
      if existing.Some? {
        return Fail(400, EmailTaken);
      }
      var u := User(ObjectId(nextId), email, hash(password));
      users := users + [u];
      nextId := nextId + 1;
      if !SecretSet(secret) {
        // thrown after User.create, caught by the handler's own catch block
        return Fail(500, RegisterFailed);
      }
      resp := Ok(201, Registered, Session(u, secret.value, sign));
    }
  }

  /** After a register, the stored user is found by email and a login with the same password succeeds. */
  lemma RegisterThenLogin(users: seq<User>, u: User, password: string, hash: Hasher, compare: Comparer,
                          secret: string, sign: Signer)
    requires FindByEmail(users, u.email).None?
    requires u.digest == hash(password) && compare(password, hash(password))
    requires secret != ""
    ensures FindByEmail(users + [u], u.email) == Some(u)
    ensures Login(users + [u], u.email, password, compare, Some(secret), sign)
         == Ok(200, LoggedIn, Session(u, secret, sign))
  {
    FindAppended(users, u);
  }

  lemma {:induction false} FindAppended(users: seq<User>, u: User)
    requires forall v :: v in users ==> v.email != u.email
    ensures FindByEmail(users + [u], u.email) == Some(u)
  {
    if users != [] {
      assert (users + [u])[1..] == users[1..] + [u];
      FindAppended(users[1..], u);
    }
  }

  /** Emails stay unique however many registers run, so `FindByEmail` names the one user with that email. */
  lemma {:induction false} FindByEmailUnique(users: seq<User>, email: string, u: User)
    requires forall i, j :: 0 <= i < j < |users| ==> users[i].email != users[j].email
    requires u in users && u.email == email
    ensures FindByEmail(users, email) == Some(u)
  {
    if users[0] != u {
      FindByEmailUnique(users[1..], email, u);
    }
  }
}

=== FILE: auth_middleware.dfy ===
/**
 * The request gate in front of every order route (src/middlewares/auth.ts):
 * it reads `Authorization: Bearer <token>`, verifies the token with the
 * configured secret, resolves the user the token names, and either attaches
 * that user to the request and lets it through, or answers 401.
 *
 * Token verification is a parameter `verify(token, secret)` returning an
 * outcome: the claims, or the name and message of the error it threw.
 */
module AuthMiddleware {
  import opened Wrappers
  import opened Types
  import opened Http
  import opened JsStrings

  /** The payload a token carries: `{userId, email}`. */
  datatype TokenClaims = TokenClaims(userId: UserId, email: string)

  /** What `jwt.verify` does with a token: decode it, or throw a named error. */
  datatype VerifyOutcome = Verified(claims: TokenClaims) | VerifyFailed(name: string, message: string)

  type Verifier = (string, string) -> VerifyOutcome

  /** A user as the gate loads it, with the password left out (`select('-password')`). */
  datatype UserView = UserView(id: UserId, email: string)

  function View(u: User): UserView {
    UserView(u.id, u.email)
  }

  const BearerPrefix: string := "Bearer "
  const NoToken: string := "Token não fornecido"
  const InvalidToken: string := "Token inválido"
  const ExpiredToken: string := "Token expirado"
  const UserNotFound: string := "Usuário não encontrado"
  const AuthFailed: string := "Erro de autenticação"
  const SecretMissing: string := "JWT_SECRET não configurado"

  /** `if (!secret)`: an unset and an empty secret are both missing. */
  predicate SecretSet(secret: Option<string>) {
    secret.Some? && secret.value != ""
  }

  /** `authHeader.split(' ')[1]`, for a header that starts with the bearer prefix. */
  function BearerToken(header: string): (token: string)
    requires StartsWith(header, BearerPrefix)
    ensures token == FirstField(header[|BearerPrefix|..])
    ensures ' ' !in token
  {
    BearerSplit(header);
    Split(header)[1]
  }

  /** After the prefix, `split` cuts the header into "Bearer" and the fields of the rest. */
  lemma BearerSplit(header: string)
    requires StartsWith(header, BearerPrefix)
    ensures Split(header) == ["Bearer"] + Split(header[|BearerPrefix|..])
  {
    assert header == "Bearer" + " " + header[|BearerPrefix|..];
    SplitAfterField("Bearer", header[|BearerPrefix|..]);
  }

  /** A space-free token written after the prefix is read back unchanged. */
  lemma BearerTokenRoundTrip(token: string)
    requires ' ' !in token
    ensures StartsWith(BearerPrefix + token, BearerPrefix)
    ensures BearerToken(BearerPrefix + token) == token
  {
    var header := BearerPrefix + token;
    assert header[..|BearerPrefix|] == BearerPrefix;
    assert header[|BearerPrefix|..] == token;
    BearerSplit(header);
    SplitNoSpace(token);
  }

  /** The catch block: the error's name picks the 401 message. */
  function Classify(name: string, message: string): (m: string)
    ensures name == "JsonWebTokenError" ==> m == InvalidToken
    ensures name == "TokenExpiredError" ==> m == ExpiredToken
    ensures name != "JsonWebTokenError" && name != "TokenExpiredError" ==>
              (message != "" ==> m == message) && (message == "" ==> m == AuthFailed)
    ensures m != ""
  {
    if name == "JsonWebTokenError" then InvalidToken
    else if name == "TokenExpiredError" then ExpiredToken
    else if message != "" then message
    else AuthFailed
  }

  /** `User.findById(id)`: the stored user with that id, if any. */
  function FindUser(users: seq<User>, id: UserId): (r: Option<User>)
    ensures r.Some? ==> r.value in users && r.value.id == id
    ensures r.None? ==> forall u :: u in users ==> u.id != id
  {
    FindUserBy(users, ById(id))
  }

  /** The gate's decision: let the request through with a user and token, or answer with a message. */
  datatype Decision = Admit(user: UserView, token: string) | Reject(message: string)

  /** The whole of `authMiddleware` as a decision over the header, the secret and the user store. */
  function Decide(header: Option<string>, secret: Option<string>, verify: Verifier, users: seq<User>): (d: Decision)
    ensures d.Admit? <==>
      && header.Some? && StartsWith(header.value, BearerPrefix)
      && SecretSet(secret)
      && verify(BearerToken(header.value), secret.value).Verified?
      && FindUser(users, verify(BearerToken(header.value), secret.value).claims.userId).Some?
    ensures d.Admit? ==>
      && d.token == BearerToken(header.value)
      && d.user.id == verify(d.token, secret.value).claims.userId
      && exists u :: u in users && View(u) == d.user
  {
    if header.None? || !StartsWith(header.value, BearerPrefix) then Reject(NoToken)
    else
      var token := BearerToken(header.value);
      // the missing secret is a plain Error thrown into the same catch block
      if !SecretSet(secret) then Reject(Classify("Error", SecretMissing))
      else match verify(token, secret.value)
        case VerifyFailed(name, message) => Reject(Classify(name, message))
        case Verified(claims) =>
          match FindUser(users, claims.userId)
          case None => Reject(UserNotFound)
          case Some(u) => Admit(View(u), token)
  }

  /** No header, or one without the prefix: "Token não fornecido". */
  lemma MissingBearerRejected(header: Option<string>, secret: Option<string>, verify: Verifier, users: seq<User>)
    requires header.None? || !StartsWith(header.value, BearerPrefix)
    ensures Decide(header, secret, verify, users) == Reject(NoToken)
  {
  }

  /** With the prefix and a secret, a malformed, badly signed or expired token gets its own message. */
  lemma VerifyFailuresClassified(header: string, secret: string, verify: Verifier, users: seq<User>)
    requires StartsWith(header, BearerPrefix) && secret != ""
    ensures var v := verify(BearerToken(header), secret);
      && (v.VerifyFailed? && v.name == "JsonWebTokenError" ==>
            Decide(Some(header), Some(secret), verify, users) == Reject(InvalidToken))
      && (v.VerifyFailed? && v.name == "TokenExpiredError" ==>
            Decide(Some(header), Some(secret), verify, users) == Reject(ExpiredToken))
  {
  }

  /** A valid token whose user is gone: "Usuário não encontrado". */
  lemma VanishedUserRejected(header: string, secret: string, verify: Verifier, users: seq<User>)
    requires StartsWith(header, BearerPrefix) && secret != ""
    requires verify(BearerToken(header), secret).Verified?
    requires forall u :: u in users ==> u.id != verify(BearerToken(header), secret).claims.userId
    ensures Decide(Some(header), Some(secret), verify, users) == Reject(UserNotFound)
  {
  }

  /** A missing secret is reported with the thrown error's own message, whatever the token. */
  lemma MissingSecretRejected(header: string, secret: Option<string>, verify: Verifier, users: seq<User>)
    requires StartsWith(header, BearerPrefix) && !SecretSet(secret)
    ensures Decide(Some(header), secret, verify, users) == Reject(SecretMissing)
  {
  }

  /** A request carrying a token the verifier accepts for a stored user is let through as that user. */
  lemma HonestTokenAdmitted(token: string, secret: string, verify: Verifier, users: seq<User>, u: User)
    requires ' ' !in token && secret != ""
    requires u in users && forall v :: v in users && v.id == u.id ==> v == u
    requires verify(token, secret) == Verified(TokenClaims(u.id, u.email))
    ensures Decide(Some(BearerPrefix + token), Some(secret), verify, users) == Admit(View(u), token)
  {
    BearerTokenRoundTrip(token);
  }

  /** What the gate does with the request: call `next`, or send a response and stop. */
  datatype GateResult = CallNext | Respond(response: Response)

  /** An incoming request, with the fields `authMiddleware` fills in on success. */
  class AuthRequest {
    const header: Option<string>
    var userId: Option<UserId>
    var user: Option<UserView>
    var token: Option<string>

    constructor(header: Option<string>)
      ensures this.header == header
      ensures userId.None? && user.None? && token.None?
    {
      this.header := header;
      userId := None;
      user := None;
      token := None;
    }

    /**
     * `authMiddleware(req, res, next)`: every failure answers 401 with the
     * decision's message and leaves the request as it was; success fills in
     * `user`, `userId` and `token` and calls `next`.
     */
    method Authenticate(secret: Option<string>, verify: Verifier, users: seq<User>) returns (result: GateResult)
      modifies this
      ensures match Decide(header, secret, verify, users)
        case Reject(m) =>
          && result == Respond(Fail(401, m))
          && userId == old(userId) && user == old(user) && token == old(token)
        case Admit(u, t) =>
          && result == CallNext
          && user == Some(u) && userId == Some(u.id) && token == Some(t)
    {
      if header.None? || !StartsWith(header.value, BearerPrefix) {
        return Respond(Fail(401, NoToken));
      }
      var t := BearerToken(header.value);
      if !SecretSet(secret) {
        return Respond(Fail(401, Classify("Error", SecretMissing)));
      }
      var outcome := verify(t, secret.value);
      if outcome.VerifyFailed? {
        return Respond(Fail(401, Classify(outcome.name, outcome.message)));
      }
      var found := FindUser(users, outcome.claims.userId);
      if found.None? {
        return Respond(Fail(401, UserNotFound));
      }
      user := Some(View(found.value));
      userId := Some(found.value.id);
      token := Some(t);
      result := CallNext;
    }
  }
}

=== FILE: http.dfy ===
/**
 * What a handler sends back through Express: a status code and the JSON
 * envelope `{success, message, data?, error?, stack?, suggested?}`.
 * Optional fields are `None` where the source leaves them out.
 */
module Http {
  import opened Wrappers
  import opened Types

  /** A JSON value as `res.json` writes it. */
  datatype Json =
    | JNull
    | JNum(num: int)
    | JStr(str: string)
    | JArr(items: seq<Json>)
    | JObj(fields: map<string, Json>)

  /** The payloads the handlers put under `data`. */
  datatype Data =
    | OrderData(order: Json)
    | OrdersData(orders: seq<Json>, pagination: Pagination)
    | UserData(id: UserId, email: string, token: string)

  datatype Envelope = Envelope(
    success: bool,
    message: string,
    data: Option<Data>,
    error: Option<string>,
    stack: Option<string>,
    suggested: Option<string>)

  datatype Response = Response(status: nat, body: Envelope)

  /** `res.status(status).json({success: false, message})`. */
  function Fail(status: nat, message: string): Response {
    Response(status, Envelope(false, message, None, None, None, None))
  }

  /** `res.status(status).json({success: true, message, data})`. */
  function Ok(status: nat, message: string, data: Data): Response {
    Response(status, Envelope(true, message, Some(data), None, None, None))
  }
}

=== FILE: js_strings.dfy ===
/**
 * The JavaScript string built-ins the core relies on, written out:
 * `String.prototype.trim` (used by Mongoose's `trim: true`),
 * `String.prototype.startsWith`, `String.prototype.split(' ')`, and the
 * decimal and hexadecimal renderings of numbers and document identifiers.
 */
module JsStrings {

  /**
   * The characters `trim` removes: the WhiteSpace and LineTerminator code
   * points of ECMA-262 (section 12.2 and 12.3 of the 2024 edition).
   */
  predicate IsJsWhitespace(c: char) {
    var n := c as int;
    n == 0x09 || n == 0x0A || n == 0x0B || n == 0x0C || n == 0x0D || n == 0x20
    || n == 0xA0 || n == 0x1680 || (0x2000 <= n <= 0x200A)
    || n == 0x2028 || n == 0x2029 || n == 0x202F || n == 0x205F
    || n == 0x3000 || n == 0xFEFF
  }

  predicate AllWhitespace(s: string) {
    forall i :: 0 <= i < |s| ==> IsJsWhitespace(s[i])
  }

  /** Drops leading whitespace. */
  function TrimStart(s: string): string {
    if s != [] && IsJsWhitespace(s[0]) then TrimStart(s[1..]) else s
  }

  /** Drops trailing whitespace. */
  function TrimEnd(s: string): string {
    if s != [] && IsJsWhitespace(s[|s| - 1]) then TrimEnd(s[..|s| - 1]) else s
  }

  /** `s.trim()`. */
  function Trim(s: string): string {
    TrimEnd(TrimStart(s))
  }

  /** `TrimStart` keeps the suffix that starts at the first character that is not whitespace. */
  lemma {:induction false} TrimStartSpec(s: string)
    ensures |TrimStart(s)| <= |s| && TrimStart(s) == s[|s| - |TrimStart(s)|..]
    ensures AllWhitespace(s[..|s| - |TrimStart(s)|])
    ensures TrimStart(s) == [] || !IsJsWhitespace(TrimStart(s)[0])
  {
    if s != [] && IsJsWhitespace(s[0]) {
      TrimStartSpec(s[1..]);
      var r := TrimStart(s[1..]);
      assert s[1..][..|s[1..]| - |r|] == s[1..|s| - |r|];
    }
  }

  /** `TrimEnd` keeps the prefix that ends at the last character that is not whitespace. */
  lemma {:induction false} TrimEndSpec(s: string)
    ensures |TrimEnd(s)| <= |s| && TrimEnd(s) == s[..|TrimEnd(s)|]
    ensures AllWhitespace(s[|TrimEnd(s)|..])
    ensures TrimEnd(s) == [] || !IsJsWhitespace(TrimEnd(s)[|TrimEnd(s)| - 1])
  {
    if s != [] && IsJsWhitespace(s[|s| - 1]) {
      TrimEndSpec(s[..|s| - 1]);
      var r := TrimEnd(s[..|s| - 1]);
      assert s[..|s| - 1][|r|..] == s[|r|..|s| - 1];
      assert s[|r|..] == s[|r|..|s| - 1] + [s[|s| - 1]];
    }
  }

  /** What `trim` promises: it cuts `s` into whitespace, a core with no whitespace at either end, and whitespace. */
  lemma TrimIsCore(s: string)
    ensures exists i, j :: 0 <= i <= j <= |s| && Trim(s) == s[i..j]
                           && AllWhitespace(s[..i]) && AllWhitespace(s[j..])
    ensures Trim(s) == [] || (!IsJsWhitespace(Trim(s)[0]) && !IsJsWhitespace(Trim(s)[|Trim(s)| - 1]))
  {
    var t := TrimStart(s);
    TrimStartSpec(s);
    TrimEndSpec(t);
    var r := TrimEnd(t);
    var i := |s| - |t|;
    var j := i + |r|;
    assert r == s[i..j];
    assert s[j..] == t[|r|..];
    if r != [] {
      assert r[0] == t[0];
    }
  }

  /** A string is rejected by a `required` + `trim` string path exactly when it is blank. */
  lemma TrimEmptyIffBlank(s: string)
    ensures Trim(s) == [] <==> AllWhitespace(s)
  {
    var t := TrimStart(s);
    TrimStartSpec(s);
    TrimEndSpec(t);
    if !AllWhitespace(s) {
      var k :| 0 <= k < |s| && !IsJsWhitespace(s[k]);
      assert k >= |s| - |t|;
      var k' := k - (|s| - |t|);
      assert t[k'] == s[k];
    }
  }

  /** A string with no whitespace at either end is its own trim. */
  lemma TrimKeepsTrimmed(s: string)
    requires s == [] || (!IsJsWhitespace(s[0]) && !IsJsWhitespace(s[|s| - 1]))
    ensures Trim(s) == s
  {
    assert TrimStart(s) == s;
  }

  /** Trimming twice is trimming once, so a stored (already trimmed) string is a fixed point. */
  lemma TrimIdempotent(s: string)
    ensures Trim(Trim(s)) == Trim(s)
  {
    var r := Trim(s);
    TrimIsCore(s);
    if r != [] {
      assert TrimStart(r) == r;
      assert TrimEnd(r) == r;
    }
  }

  /** `h.startsWith(p)`. */
  predicate StartsWith(h: string, p: string) {
    |p| <= |h| && h[..|p|] == p
  }

  /** `s.split(' ')`: the fields between single spaces, always at least one. */
  function Split(s: string): (r: seq<string>)
    ensures |r| >= 1
    ensures forall k :: 0 <= k < |r| ==> ' ' !in r[k]
  {
    if s == [] then [""]
    else
      var rest := Split(s[1..]);
      if s[0] == ' ' then [""] + rest
      else [[s[0]] + rest[0]] + rest[1..]
  }

  /** `fields.join(' ')`. */
  function Join(fields: seq<string>): string
    requires |fields| >= 1
  {
    if |fields| == 1 then fields[0] else fields[0] + " " + Join(fields[1..])
  }

  /** Splitting and joining back gives the original header. */
  lemma {:induction false} JoinSplit(s: string)
    ensures Join(Split(s)) == s
  {
    if s != [] {
      var rest := Split(s[1..]);
      JoinSplit(s[1..]);
      if s[0] == ' ' {
        assert Join([""] + rest) == "" + " " + Join(rest);
        assert s == [' '] + s[1..];
      } else {
        var r := [[s[0]] + rest[0]] + rest[1..];
        if |rest| == 1 {
          assert Join(r) == [s[0]] + rest[0];
        } else {
          assert r[1..] == rest[1..];
          assert Join(r) == [s[0]] + rest[0] + " " + Join(rest[1..]);
          assert Join(rest) == rest[0] + " " + Join(rest[1..]);
        }
        assert s == [s[0]] + s[1..];
      }
    }
  }

  /** Joining space-free fields and splitting again gives the fields back. */
  lemma {:induction false} SplitJoin(fields: seq<string>)
    requires |fields| >= 1
    requires forall k :: 0 <= k < |fields| ==> ' ' !in fields[k]
    ensures Split(Join(fields)) == fields
  {
    if |fields| == 1 {
      SplitNoSpace(fields[0]);
    } else {
      SplitJoin(fields[1..]);
      SplitAfterField(fields[0], Join(fields[1..]));
      assert [fields[0]] + fields[1..] == fields;
    }
  }

  lemma {:induction false} SplitNoSpace(s: string)
    requires ' ' !in s
    ensures Split(s) == [s]
  {
    if s != [] {
      SplitNoSpace(s[1..]);
      assert [s[0]] + s[1..] == s;
    }
  }

  /** A space-free field followed by a space splits off as the first field. */
  lemma {:induction false} SplitAfterField(f: string, rest: string)
    requires ' ' !in f
    ensures Split(f + " " + rest) == [f] + Split(rest)
  {
    if f == [] {
      assert f + " " + rest == [' '] + rest;
      assert (f + " " + rest)[1..] == rest;
    } else {
      var s := f + " " + rest;
      assert s[1..] == f[1..] + " " + rest;
      SplitAfterField(f[1..], rest);
      assert [f[0]] + f[1..] == f;
    }
  }

  /** The characters of `s` up to its first space. */
  function FirstField(s: string): (r: string)
    ensures r == Split(s)[0]
    ensures |r| <= |s| && r == s[..|r|] && ' ' !in r
    ensures |r| == |s| || s[|r|] == ' '
  {
    if s == [] || s[0] == ' ' then "" else [s[0]] + FirstField(s[1..])
  }

  /** Base-10 rendering of a natural number, as `String(n)` gives it. */
  function DecimalString(n: nat): (r: string)
    ensures |r| >= 1
    ensures forall k :: 0 <= k < |r| ==> '0' <= r[k] <= '9'
  {
    if n < 10 then [DigitChar(n)] else DecimalString(n / 10) + [DigitChar(n % 10)]
  }

  function DigitChar(d: nat): (c: char)
    requires d < 16
    ensures c in "0123456789abcdef"
  {
    "0123456789abcdef"[d]
  }

  function Pow16(k: nat): (r: nat)
    ensures r >= 1
  {
    if k == 0 then 1 else 16 * Pow16(k - 1)
  }

  /** The lowest `width` hexadecimal digits of `n`, most significant first, lower case. */
  function Hex(n: nat, width: nat): (r: string)
    ensures |r| == width
    ensures forall k :: 0 <= k < |r| ==> r[k] in "0123456789abcdef"
  {
    if width == 0 then "" else Hex(n / 16, width - 1) + [DigitChar(n % 16)]
  }

  function DigitValue(c: char): nat {
    if '0' <= c <= '9' then c as nat - '0' as nat
    else if 'a' <= c <= 'f' then c as nat - 'a' as nat + 10
    else 0
  }

  function ParseHex(s: string): nat {
    if s == [] then 0 else 16 * ParseHex(s[..|s| - 1]) + DigitValue(s[|s| - 1])
  }

  /** Reading back `width` hex digits recovers any `n` that fits in them. */
  lemma {:induction false} ParseHexOfHex(n: nat, width: nat)
    requires n < Pow16(width)
    ensures ParseHex(Hex(n, width)) == n
  {
    if width > 0 {
      var h := Hex(n, width);
      assert h[..|h| - 1] == Hex(n / 16, width - 1);
      ParseHexOfHex(n / 16, width - 1);
      var d := n % 16;
      assert DigitValue("0123456789abcdef"[d]) == d;
    }
  }
}

=== FILE: order_controller.dfy ===
/**
 * The order handlers (src/controllers/orderController.ts): the fixed
 * workflow table, creation, the owner-scoped paginated listing, and the
 * advance operation that rewrites one order's state in place.
 *
 * Every handler first answers 401 when no authenticated user is attached.
 */
module OrderController {
  import opened Wrappers
  import opened Types
  import opened Http
  import opened OrderModel
  import opened JsStrings

  const Unauthenticated := "Usuário não autenticado"
  const OrderNotFound := "Pedido não encontrado"
  const OrderCreated := "Pedido criado com sucesso"
  const OrdersListed := "Pedidos listados com sucesso"

  function FinalStateMessage(s: OrderState): string {
    "Pedido já está no estado final (" + StateName(s) + ")"
  }

  function AdvancedMessage(s: OrderState): string {
    "Pedido avançado para " + StateName(s)
  }

  // ---------------------------------------------------------------- workflow

  /** Position of a state along CREATED < ANALYSIS < COMPLETED. */
  function Rank(s: OrderState): nat {
    match s
    case CREATED => 0
    case ANALYSIS => 1
    case COMPLETED => 2
  }

  /**
   * The `validTransitions` table. It is total; its only step goes exactly one
   * position forward, and COMPLETED alone has no next state.
   */
  function Next(s: OrderState): (r: Option<OrderState>)
    ensures r.None? <==> s == COMPLETED
    ensures r.Some? ==> Rank(r.value) == Rank(s) + 1
  {
    match s
    case CREATED => Some(ANALYSIS)
    case ANALYSIS => Some(COMPLETED)
    case COMPLETED => None
  }

  // ---------------------------------------------------------------- advance

  /** The `findOne({_id: id, createdBy: owner, status: 'ACTIVE'})` filter. */
  predicate Owned(o: Order, id: ObjectId, owner: UserId) {
    o.id == id && o.createdBy == owner && o.status == ACTIVE
  }

  /** The position of an order the filter matches, if there is one. */
  function FindOwned(orders: seq<Order>, id: ObjectId, owner: UserId): (r: Option<nat>)
    ensures r.Some? ==> r.value < |orders| && Owned(orders[r.value], id, owner)
    ensures r.None? ==> forall i :: 0 <= i < |orders| ==> !Owned(orders[i], id, owner)
  {
    if orders == [] then None
    else if Owned(orders[|orders| - 1], id, owner) then Some(|orders| - 1)
    else FindOwned(orders[..|orders| - 1], id, owner)
  }

  /** Two stores on which the filter matches the same positions give the same answer. */
  lemma {:induction false} FindOwnedSamePattern(a: seq<Order>, b: seq<Order>, id: ObjectId, owner: UserId)
    requires |a| == |b|
    requires forall i :: 0 <= i < |a| ==> (Owned(a[i], id, owner) <==> Owned(b[i], id, owner))
    ensures FindOwned(a, id, owner) == FindOwned(b, id, owner)
  {
    if a != [] && !Owned(a[|a| - 1], id, owner) {
      FindOwnedSamePattern(a[..|a| - 1], b[..|b| - 1], id, owner);
    }
  }

  /** One order either stays as it was or takes exactly the table's next step. */
  predicate StepOrStay(before: Order, after: Order) {
    after == before
    || (Next(before.state).Some? && after == before.(state := Next(before.state).value))
  }

  /**
   * The effect of one `advanceOrder` call on the store: the response and the
   * new list of orders. Only the order the lookup finds may change, and only
   * by one step of the table; 401, 404 and 400 say exactly which check failed.
   */
  function AdvanceEffect(orders: seq<Order>, userId: Option<UserId>, id: ObjectId): (r: (Response, seq<Order>))
    ensures |r.1| == |orders|
    ensures forall j :: 0 <= j < |orders| ==> StepOrStay(orders[j], r.1[j])
    ensures forall j :: 0 <= j < |orders| && r.1[j] != orders[j] ==>
              userId.Some? && FindOwned(orders, id, userId.value) == Some(j)
    ensures forall j :: 0 <= j < |orders| && (userId.None? || orders[j].createdBy != userId.value) ==> r.1[j] == orders[j]
    ensures r.0.status == 200 <==> r.1 != orders
    ensures r.0.status == 401 <==> userId.None?
    ensures userId.Some? ==> (r.0.status == 404 <==> FindOwned(orders, id, userId.value).None?)
    ensures userId.Some? && FindOwned(orders, id, userId.value).Some? ==>
              (r.0.status == 400 <==> orders[FindOwned(orders, id, userId.value).value].state == COMPLETED)
    ensures r.0.status in {200, 400, 401, 404}
    ensures r.0.status == 200 ==>
              && userId.Some? && FindOwned(orders, id, userId.value).Some?
              && var i := FindOwned(orders, id, userId.value).value;
                 r.0 == Ok(200, AdvancedMessage(r.1[i].state), OrderData(JObj(ToJSON(r.1[i]))))
  {
    if userId.None? then (Fail(401, Unauthenticated), orders)
    else match FindOwned(orders, id, userId.value)
      case None => (Fail(404, OrderNotFound), orders)
      case Some(i) =>
        var o := orders[i];
        match Next(o.state)
        case None => (Fail(400, FinalStateMessage(o.state)), orders)
        case Some(s) =>
          var o' := o.(state := s);
          assert orders[i := o'][i] != orders[i];
          (Ok(200, AdvancedMessage(s), OrderData(JObj(ToJSON(o')))), orders[i := o'])
  }

  /** `n` advance calls in a row on the same order. */
  function AdvanceTimes(orders: seq<Order>, userId: Option<UserId>, id: ObjectId, n: nat): (r: seq<Order>)
    ensures |r| == |orders|
    decreases n
  {
    if n == 0 then orders else AdvanceTimes(AdvanceEffect(orders, userId, id).1, userId, id, n - 1)
  }

  /** Advancing never changes which order the lookup finds. */
  lemma AdvanceKeepsLookup(orders: seq<Order>, userId: Option<UserId>, id: ObjectId, owner: UserId)
    ensures FindOwned(AdvanceEffect(orders, userId, id).1, id, owner) == FindOwned(orders, id, owner)
  {
    var after := AdvanceEffect(orders, userId, id).1;
    FindOwnedSamePattern(orders, after, id, owner);
  }

  /**
   * Once the order is COMPLETED, any number of further attempts changes
   * nothing, and each of them answers 400 naming the final state.
   */
  lemma {:induction false} CompletedStaysFinal(orders: seq<Order>, owner: UserId, id: ObjectId, n: nat)
    requires FindOwned(orders, id, owner).Some?
    requires orders[FindOwned(orders, id, owner).value].state == COMPLETED
    ensures AdvanceTimes(orders, Some(owner), id, n) == orders
    ensures AdvanceEffect(AdvanceTimes(orders, Some(owner), id, n), Some(owner), id).0
            == Fail(400, FinalStateMessage(COMPLETED))
  {
    if n > 0 {
      CompletedStaysFinal(orders, owner, id, n - 1);
    }
  }

  /** From CREATED, two advances reach COMPLETED through ANALYSIS, and a third one fails. */
  lemma CreatedToCompleted(orders: seq<Order>, owner: UserId, id: ObjectId)
    requires FindOwned(orders, id, owner).Some?
    requires orders[FindOwned(orders, id, owner).value].state == CREATED
    ensures var i := FindOwned(orders, id, owner).value;
            && AdvanceTimes(orders, Some(owner), id, 1)[i] == orders[i].(state := ANALYSIS)
            && AdvanceTimes(orders, Some(owner), id, 2)[i] == orders[i].(state := COMPLETED)
            && AdvanceEffect(AdvanceTimes(orders, Some(owner), id, 2), Some(owner), id).0.status == 400
  {
    var i := FindOwned(orders, id, owner).value;
    var once := AdvanceEffect(orders, Some(owner), id).1;
    AdvanceKeepsLookup(orders, Some(owner), id, owner);
    var twice := AdvanceEffect(once, Some(owner), id).1;
    AdvanceKeepsLookup(once, Some(owner), id, owner);
    assert AdvanceTimes(orders, Some(owner), id, 2) == twice;
  }

  /** A run of `advanceOrder` calls, each given as the caller and the order id. */
  function AdvanceRun(orders: seq<Order>, calls: seq<(Option<UserId>, ObjectId)>): (r: seq<Order>)
    ensures |r| == |orders|
    decreases |calls|
  {
    if calls == [] then orders
    else AdvanceRun(AdvanceEffect(orders, calls[0].0, calls[0].1).1, calls[1..])
  }

  /** Along any run of advances, by any callers on any ids, each order's state only moves forward. */
  lemma {:induction false} AdvanceRunMonotone(orders: seq<Order>, calls: seq<(Option<UserId>, ObjectId)>)
    ensures forall j :: 0 <= j < |orders| ==> Rank(orders[j].state) <= Rank(AdvanceRun(orders, calls)[j].state)
    decreases |calls|
  {
    if calls != [] {
      var once := AdvanceEffect(orders, calls[0].0, calls[0].1).1;
      AdvanceRunMonotone(once, calls[1..]);
    }
  }

  /** A run of advances made by other callers leaves every order of `owner` as it was. */
  lemma {:induction false} AdvanceRunSparesOthers(orders: seq<Order>, calls: seq<(Option<UserId>, ObjectId)>, owner: UserId)
    requires forall c :: c in calls ==> c.0 != Some(owner)
    ensures forall j :: 0 <= j < |orders| && orders[j].createdBy == owner ==> AdvanceRun(orders, calls)[j] == orders[j]
    decreases |calls|
  {
    if calls != [] {
      var once := AdvanceEffect(orders, calls[0].0, calls[0].1).1;
      assert forall c :: c in calls[1..] ==> c in calls;
      AdvanceRunSparesOthers(once, calls[1..], owner);
    }
  }

  // ---------------------------------------------------------------- listing

  /**
   * The `getOrders` filter: the caller's active orders, in the given state when
   * one is asked for. A name that is not a state matches no order.
   */
  predicate Matches(o: Order, owner: UserId, state: Option<string>) {
    o.createdBy == owner && o.status == ACTIVE
    && (state.None? || state.value == "" || ParseState(state.value) == Some(o.state))
  }

  /** The orders the filter selects, each with its multiplicity in the store. */
  function Select(orders: seq<Order>, owner: UserId, state: Option<string>): (r: seq<Order>)
    ensures forall o :: multiset(r)[o] == if Matches(o, owner, state) then multiset(orders)[o] else 0
  {
    if orders == [] then []
    else
      var rest := Select(orders[..|orders| - 1], owner, state);
      var last := orders[|orders| - 1];
      assert orders == orders[..|orders| - 1] + [last];
      if Matches(last, owner, state) then rest + [last] else rest
  }

  /** Most recent creation first. */
  predicate NewestFirst(s: seq<Order>) {
    forall i, j :: 0 <= i < j < |s| ==> s[i].createdAt >= s[j].createdAt
  }

  /** Places `o` before the first order that is not more recent than it. */
  function Insert(o: Order, s: seq<Order>): (r: seq<Order>)
    ensures |r| == |s| + 1
  {
    if s == [] || o.createdAt >= s[0].createdAt then [o] + s
    else [s[0]] + Insert(o, s[1..])
  }

  /** Insertion adds exactly the one order. */
  lemma {:induction false} InsertCount(o: Order, s: seq<Order>)
    ensures multiset(Insert(o, s)) == multiset(s) + multiset{o}
  {
    if s != [] && o.createdAt < s[0].createdAt {
      InsertCount(o, s[1..]);
      assert s == [s[0]] + s[1..];
      assert multiset([s[0]] + Insert(o, s[1..])) == multiset{s[0]} + multiset(Insert(o, s[1..]));
    }
  }

  /** Insertion keeps a newest-first list newest first. */
  lemma {:induction false} InsertSorted(o: Order, s: seq<Order>)
    requires NewestFirst(s)
    ensures NewestFirst(Insert(o, s))
  {
    if s != [] && o.createdAt < s[0].createdAt {
      var rest := Insert(o, s[1..]);
      InsertSorted(o, s[1..]);
      InsertCount(o, s[1..]);
      var r := [s[0]] + rest;
      forall j | 0 <= j < |rest| ensures rest[j].createdAt <= s[0].createdAt {
        assert rest[j] in multiset(rest);
        if rest[j] != o {
          assert rest[j] in multiset(s[1..]);
          var k :| 0 <= k < |s[1..]| && s[1..][k] == rest[j];
          assert s[k + 1] == rest[j];
        }
      }
      forall i, j | 0 <= i < j < |r| ensures r[i].createdAt >= r[j].createdAt {
        assert r[j] == rest[j - 1];
        if i > 0 {
          assert r[i] == rest[i - 1];
        }
      }
    }
  }

  /** `.sort({createdAt: -1})`: the same orders, most recent first. */
  function SortNewestFirst(s: seq<Order>): (r: seq<Order>)
    ensures NewestFirst(r)
    ensures multiset(r) == multiset(s)
  {
    if s == [] then []
    else
      assert s == [s[0]] + s[1..];
      InsertSorted(s[0], SortNewestFirst(s[1..]));
      InsertCount(s[0], SortNewestFirst(s[1..]));
      Insert(s[0], SortNewestFirst(s[1..]))
  }

  /** `Math.ceil(total / limit)`. */
  function CeilDiv(total: nat, limit: nat): (r: nat)
    requires limit >= 1
    ensures r * limit >= total
    ensures r == 0 || (r - 1) * limit < total
    ensures r == 0 <==> total == 0
  {
    var r := (total + limit - 1) / limit;
    assert r * limit == total + limit - 1 - (total + limit - 1) % limit;
    r
  }

  /** The page metadata of the two examples the workflow is known by. */
  lemma TotalPagesExamples()
    ensures CeilDiv(25, 10) == 3
    ensures CeilDiv(0, 10) == 0
  {
  }

  /** The offset of a page: `(page - 1) * limit`. */
  function Skip(page: int, limit: int): (skip: nat)
    requires page >= 1 && limit >= 1
    ensures skip == (page - 1) * limit
  {
    assert (page - 1) * limit >= 0 * limit;
    (page - 1) * limit
  }

  /** `.skip(skip).limit(limit)` over an already sorted list. */
  function Window(s: seq<Order>, skip: nat, limit: nat): (r: seq<Order>)
    ensures |r| <= limit
    ensures skip >= |s| ==> r == []
    ensures skip < |s| ==> |r| == if skip + limit >= |s| then |s| - skip else limit
    ensures forall k :: 0 <= k < |r| ==> skip + k < |s| && r[k] == s[skip + k]
  {
    if skip >= |s| then []
    else if skip + limit >= |s| then s[skip..]
    else s[skip..skip + limit]
  }

  datatype OrdersPage = OrdersPage(items: seq<Order>, pagination: Pagination)

  /** The page and the metadata `getOrders` computes for a caller. */
  function QueryOrders(orders: seq<Order>, owner: UserId, q: PaginationQuery): (r: OrdersPage)
    requires q.page.GetOr(1) >= 1 && q.limit.GetOr(10) >= 1
    ensures forall o :: o in r.items ==> o in orders && Matches(o, owner, q.state)
    ensures NewestFirst(r.items)
    ensures |r.items| <= q.limit.GetOr(10)
    ensures r.pagination.total == |Select(orders, owner, q.state)|
    ensures r.pagination.page == q.page.GetOr(1) && r.pagination.limit == q.limit.GetOr(10)
    ensures r.pagination.totalPages * q.limit.GetOr(10) >= r.pagination.total
    ensures r.pagination.totalPages == CeilDiv(r.pagination.total, q.limit.GetOr(10))
    ensures r.items == Window(SortNewestFirst(Select(orders, owner, q.state)),
                              Skip(q.page.GetOr(1), q.limit.GetOr(10)), q.limit.GetOr(10))
    ensures r.pagination.total == 0 ==> r.pagination.totalPages == 0 && r.items == []
  {
    var page := q.page.GetOr(1);
    var limit := q.limit.GetOr(10);
    var selected := Select(orders, owner, q.state);
    var skip := Skip(page, limit);
    var items := Window(SortNewestFirst(selected), skip, limit);
    WindowOfSelection(orders, owner, q.state, skip, limit);
    OrdersPage(items, Pagination(page, limit, |selected|, CeilDiv(|selected|, limit)))
  }

  /** A window of the sorted selection holds only matching stored orders, still newest first. */
  lemma WindowOfSelection(orders: seq<Order>, owner: UserId, state: Option<string>, skip: nat, limit: nat)
    ensures var sorted := SortNewestFirst(Select(orders, owner, state));
            var items := Window(sorted, skip, limit);
            && |sorted| == |Select(orders, owner, state)|
            && (forall o :: o in items ==> o in orders && Matches(o, owner, state))
            && NewestFirst(items)
  {
    var selected := Select(orders, owner, state);
    var sorted := SortNewestFirst(selected);
    var items := Window(sorted, skip, limit);
    assert |sorted| == |multiset(sorted)| == |multiset(selected)| == |selected|;
    forall o | o in items ensures o in orders && Matches(o, owner, state) {
      var k :| 0 <= k < |items| && items[k] == o;
      assert sorted[skip + k] == o;
      assert o in multiset(sorted);
      assert multiset(selected)[o] > 0;
    }
    forall i, j | 0 <= i < j < |items| ensures items[i].createdAt >= items[j].createdAt {
      assert items[i] == sorted[skip + i] && items[j] == sorted[skip + j];
    }
  }

  /**
   * Pages cut the sorted selection without gaps or overlap: the k-th match
   * (newest first) is item k % limit of page k / limit + 1.
   */
  lemma PagesCoverSelection(orders: seq<Order>, owner: UserId, state: Option<string>, limit: nat, page: nat, i: nat)
    requires limit >= 1 && page >= 1 && i < limit
    requires Skip(page, limit) + i < |Select(orders, owner, state)|
    ensures var r := QueryOrders(orders, owner, PaginationQuery(Some(page), Some(limit), state));
            i < |r.items| && r.items[i] == SortNewestFirst(Select(orders, owner, state))[Skip(page, limit) + i]
  {
    var sorted := SortNewestFirst(Select(orders, owner, state));
    var skip := Skip(page, limit);
    WindowOfSelection(orders, owner, state, skip, limit);
    WindowAt(sorted, skip, limit, skip + i);
  }

  /** Every position `k` has a page: page `k / limit + 1`, at index `k % limit`. */
  lemma PageOf(k: nat, limit: nat)
    requires limit >= 1
    ensures k / limit + 1 >= 1 && k % limit < limit
    ensures Skip(k / limit + 1, limit) + k % limit == k
  {
    DivMod(k, limit);
  }

  lemma WindowAt(s: seq<Order>, skip: nat, limit: nat, k: nat)
    requires skip <= k < |s| && k - skip < limit
    ensures k - skip < |Window(s, skip, limit)| && Window(s, skip, limit)[k - skip] == s[k]
  {
  }

  /** A page past the last one is empty. */
  lemma PagePastEndEmpty(orders: seq<Order>, owner: UserId, state: Option<string>, limit: nat, page: nat)
    requires limit >= 1 && page >= 1
    requires page > QueryOrders(orders, owner, PaginationQuery(Some(page), Some(limit), state)).pagination.totalPages
    ensures QueryOrders(orders, owner, PaginationQuery(Some(page), Some(limit), state)).items == []
  {
    var sorted := SortNewestFirst(Select(orders, owner, state));
    var skip := Skip(page, limit);
    WindowOfSelection(orders, owner, state, skip, limit);
    PastLastPage(|sorted|, limit, page);
  }

  lemma PastLastPage(total: nat, limit: nat, page: nat)
    requires limit >= 1 && page > CeilDiv(total, limit)
    ensures Skip(page, limit) >= total
  {
    MulMonotone(page - 1, CeilDiv(total, limit), limit);
  }

  lemma DivMod(k: nat, limit: nat)
    requires limit >= 1
    ensures (k / limit) * limit + k % limit == k && k % limit < limit
  {
  }

  lemma MulMonotone(a: nat, b: nat, c: nat)
    requires a >= b
    ensures a * c >= b * c
  {
  }

  /** `getOrders`: the listed orders are plain documents (`.lean()`), so they carry `_id` and no virtuals. */
  function GetOrders(orders: seq<Order>, userId: Option<UserId>, q: PaginationQuery): (resp: Response)
    requires q.page.GetOr(1) >= 1 && q.limit.GetOr(10) >= 1
    ensures userId.None? <==> resp == Fail(401, Unauthenticated)
    ensures resp.status in {200, 401}
    ensures userId.Some? ==>
              var r := QueryOrders(orders, userId.value, q);
              resp == Ok(200, OrdersListed, OrdersData(LeanDocuments(r.items), r.pagination))
  {
    if userId.None? then Fail(401, Unauthenticated)
    else
      var r := QueryOrders(orders, userId.value, q);
      Ok(200, OrdersListed, OrdersData(LeanDocuments(r.items), r.pagination))
  }

  /** The listed documents: one lean document per order of the page, in the page's order. */
  function LeanDocuments(os: seq<Order>): (r: seq<Json>)
    ensures |r| == |os|
    ensures forall k :: 0 <= k < |os| ==> r[k] == JObj(LeanDocument(os[k]))
    ensures forall k :: 0 <= k < |os| ==>
              && r[k].JObj? && "_id" in r[k].fields && "__v" in r[k].fields
              && "id" !in r[k].fields && "totalValue" !in r[k].fields
  {
    seq(|os|, k requires 0 <= k < |os| => JObj(LeanDocument(os[k])))
  }

  /** A caller never sees an order of someone else, nor a deleted one. */
  lemma ListingIsOwnerScoped(orders: seq<Order>, owner: UserId, q: PaginationQuery, o: Order)
    requires q.page.GetOr(1) >= 1 && q.limit.GetOr(10) >= 1
    requires o.createdBy != owner || o.status == DELETED
    ensures o !in QueryOrders(orders, owner, q).items
    ensures multiset(Select(orders, owner, q.state))[o] == 0
  {
  }

  // ---------------------------------------------------------------- the store

  /** The order collection, updated in place by `createOrder` and `advanceOrder`. */
  class OrderStore {
    var orders: seq<Order>
    var nextId: nat

    /** Identifiers are handed out in increasing order, and every stored order passed the schema. */
    ghost predicate Valid()
      reads this
    {
      && (forall i :: 0 <= i < |orders| ==> orders[i].id.n < nextId)
      && (forall i, j :: 0 <= i < j < |orders| ==> orders[i].id.n < orders[j].id.n)
      && (forall i :: 0 <= i < |orders| ==> ValidOrder(orders[i]))
    }

    constructor ()
      ensures Valid() && orders == [] && nextId == 0
    {
      orders := [];
      nextId := 0;
    }

    /** `createOrder`: validate and insert, owned by the caller. */
    method CreateOrder(userId: Option<UserId>, input: OrderInput, now: nat) returns (resp: Response)
      requires Valid()
      modifies this
      ensures Valid()
      ensures userId.None? ==> resp == Fail(401, Unauthenticated) && orders == old(orders) && nextId == old(nextId)
      ensures userId.Some? ==>
        match Create(input, userId.value, ObjectId(old(nextId)), now)
        case Failure(Invalid(vs)) =>
          resp == Fail(400, RenderViolations(vs)) && orders == old(orders) && nextId == old(nextId)
        case Failure(HookFailed(m)) =>
          resp == Fail(500, m) && orders == old(orders) && nextId == old(nextId)
        case Success(o) =>
          && orders == old(orders) + [o] && nextId == old(nextId) + 1
          && resp == Ok(201, OrderCreated, OrderData(JObj(ToJSON(o))))
    {
      if userId.None? {
        resp := Fail(401, Unauthenticated);
        return;
      }
      var created := Create(input, userId.value, ObjectId(nextId), now);
      match created {
        case Failure(Invalid(vs)) =>
          // a ValidationError: 400
          resp := Fail(400, RenderViolations(vs));
        case Failure(HookFailed(m)) =>
          // a plain Error raised by the pre-save hook: 500
          resp := Fail(500, m);
        case Success(o) =>
          orders := orders + [o];
          nextId := nextId + 1;
          resp := Ok(201, OrderCreated, OrderData(JObj(ToJSON(o))));
      }
    }

    /** `advanceOrder`: find the caller's active order and move its state one step. */
    method AdvanceOrder(userId: Option<UserId>, id: ObjectId) returns (resp: Response)
      requires Valid()
      modifies this
      ensures Valid() && nextId == old(nextId)
      ensures (resp, orders) == AdvanceEffect(old(orders), userId, id)
    {
      if userId.None? {
        resp := Fail(401, Unauthenticated);
        return;
      }
      var found := FindOwned(orders, id, userId.value);
      if found.None? {
        resp := Fail(404, OrderNotFound);
        return;
      }
      var i := found.value;
      var nextState := Next(orders[i].state);
      if nextState.None? {
        resp := Fail(400, FinalStateMessage(orders[i].state));
        return;
      }
      AdvanceKeepsValid(orders[i], nextState.value);
      orders := orders[i := orders[i].(state := nextState.value)];
      resp := Ok(200, AdvancedMessage(nextState.value), OrderData(JObj(ToJSON(orders[i]))));
    }
  }

  /** The order the workflow scenario submits: two services worth 80 and 25. */
  function ScenarioInput(): OrderInput {
    OrderInput(Some("Lab"), Some("Paciente"), Some("Cliente"),
      [ServiceInput(Some("Hemograma"), Some(80), None), ServiceInput(Some("Glicemia"), Some(25), None)])
  }

  /** The scenario's order passes validation and the pre-save guard, with total 105 and pending services. */
  lemma ScenarioCreates(owner: UserId, id: ObjectId, now: nat)
    ensures var r := Create(ScenarioInput(), owner, id, now);
            && r.Success? && r.value.state == CREATED && r.value.lab == "Lab"
            && r.value.services == [Service("Hemograma", 80, PENDING), Service("Glicemia", 25, PENDING)]
            && TotalValue(r.value.services) == 105
  {
    var input := ScenarioInput();
    TrimKeepsTrimmed("Lab");
    TrimKeepsTrimmed("Paciente");
    TrimKeepsTrimmed("Cliente");
    TrimKeepsTrimmed("Hemograma");
    TrimKeepsTrimmed("Glicemia");
    assert SchemaAcceptable(input);
    var services := CastServices(input.services);
    assert services == [Service("Hemograma", 80, PENDING), Service("Glicemia", 25, PENDING)];
    assert services[1..] == [Service("Glicemia", 25, PENDING)];
    assert FoldValues(0, services) == FoldValues(80, [Service("Glicemia", 25, PENDING)]) == 105;
  }
}

=== FILE: order_model.dfy ===
/**
 * The order schema (src/models/Order.ts): what `Order.create` accepts, the
 * defaults it fills in, the `totalValue` virtual, the pre-save guard on the
 * total, and the JSON form of an order.
 *
 * Mongoose runs the schema validators first (every failing path is reported
 * together in one ValidationError) and the user pre-save hook only after
 * validation has passed; `Create` keeps that order.
 */
module OrderModel {
  import opened Wrappers
  import opened Types
  import opened JsStrings
  import opened Http

  /** A service as it arrives in the request body; any field may be missing. */
  datatype ServiceInput = ServiceInput(name: Option<string>, value: Option<int>, status: Option<string>)

  /**
   * An order as it arrives in the request body. A missing `services` field is
   * the empty array, the default Mongoose gives array paths.
   */
  datatype OrderInput = OrderInput(
    lab: Option<string>,
    patient: Option<string>,
    customer: Option<string>,
    services: seq<ServiceInput>)

  /** One failing schema path and its message. */
  datatype Violation = Violation(path: string, message: string)

  /** Why `Order.create` refused to store an order. */
  datatype CreateError =
    | Invalid(violations: seq<Violation>)   // a ValidationError from the schema validators
    | HookFailed(message: string)           // a plain Error from the pre-save hook

  const LabRequired := "Laboratório é obrigatório"
  const PatientRequired := "Paciente é obrigatório"
  const CustomerRequired := "Cliente é obrigatório"
  const ServicesEmpty := "Pedido deve conter pelo menos um serviço"
  const ServiceNameRequired := "Nome do serviço é obrigatório"
  const ServiceValueRequired := "Valor do serviço é obrigatório"
  const ServiceValueNegative := "Valor não pode ser negativo"
  const TotalNotPositive := "Valor total do pedido deve ser maior que zero"

  /** Mongoose's default message for a value outside an `enum`. */
  function EnumMessage(v: string, path: string): string {
    "`" + v + "` is not a valid enum value for path `" + path + "`."
  }

  // ---------------------------------------------------------------- totalValue

  /** The `reduce((sum, s) => sum + s.value, acc)` fold, left to right. */
  function FoldValues(acc: int, ss: seq<Service>): int
    decreases ss
  {
    if ss == [] then acc else FoldValues(acc + ss[0].value, ss[1..])
  }

  /** The `totalValue` virtual and the pre-save hook's total: the fold started at 0. */
  function TotalValue(ss: seq<Service>): (total: int)
    ensures total == SumValues(ss)
  {
    FoldIsSum(0, ss);
    FoldValues(0, ss)
  }

  /** The sum of the service values, as a plain recursive reference definition. */
  function SumValues(ss: seq<Service>): int {
    if ss == [] then 0 else ss[0].value + SumValues(ss[1..])
  }

  /** The left fold adds exactly the values' sum to its start. */
  lemma {:induction false} FoldIsSum(acc: int, ss: seq<Service>)
    ensures FoldValues(acc, ss) == acc + SumValues(ss)
    decreases ss
  {
    if ss != [] {
      FoldIsSum(acc + ss[0].value, ss[1..]);
    }
  }

  /** Appending a service adds its value to the total. */
  lemma {:induction false} TotalAppend(ss: seq<Service>, s: Service)
    ensures TotalValue(ss + [s]) == TotalValue(ss) + s.value
  {
    FoldIsSum(0, ss + [s]);
    FoldIsSum(0, ss);
    SumAppend(ss, s);
  }

  lemma {:induction false} SumAppend(ss: seq<Service>, s: Service)
    ensures SumValues(ss + [s]) == SumValues(ss) + s.value
  {
    if ss != [] {
      assert (ss + [s])[1..] == ss[1..] + [s];
      SumAppend(ss[1..], s);
    }
  }

  /** With no negative value the total is positive exactly when some value is. */
  lemma {:induction false} TotalPositiveIff(ss: seq<Service>)
    requires forall k :: 0 <= k < |ss| ==> ss[k].value >= 0
    ensures TotalValue(ss) >= 0
    ensures TotalValue(ss) > 0 <==> exists k :: 0 <= k < |ss| && ss[k].value > 0
  {
    FoldIsSum(0, ss);
    SumPositiveIff(ss);
  }

  lemma {:induction false} SumPositiveIff(ss: seq<Service>)
    requires forall k :: 0 <= k < |ss| ==> ss[k].value >= 0
    ensures SumValues(ss) >= 0
    ensures SumValues(ss) > 0 <==> exists k :: 0 <= k < |ss| && ss[k].value > 0
  {
    if ss != [] {
      SumPositiveIff(ss[1..]);
      if SumValues(ss[1..]) > 0 {
        var k :| 0 <= k < |ss[1..]| && ss[1..][k].value > 0;
        assert ss[k + 1].value > 0;
      }
      if exists k :: 0 <= k < |ss| && ss[k].value > 0 {
        var k :| 0 <= k < |ss| && ss[k].value > 0;
        if k > 0 {
          assert ss[1..][k - 1].value > 0;
        }
      }
    }
  }

  // ---------------------------------------------------------------- validation

  /** A `required` + `trim` string path accepts a present value that is not blank. */
  predicate RequiredStringOk(v: Option<string>) {
    v.Some? && Trim(v.value) != ""
  }

  /** The value a `trim` string path stores. */
  function CastString(v: Option<string>): string {
    Trim(v.GetOr(""))
  }

  /** One service's schema rules, stated directly. */
  predicate ServiceAcceptable(si: ServiceInput) {
    && RequiredStringOk(si.name)
    && si.value.Some? && si.value.value >= 0
    && (si.status.None? || ParseServiceStatus(si.status.value).Some?)
  }

  /** The whole order schema, stated directly. */
  predicate SchemaAcceptable(input: OrderInput) {
    && RequiredStringOk(input.lab)
    && RequiredStringOk(input.patient)
    && RequiredStringOk(input.customer)
    && |input.services| > 0
    && forall k :: 0 <= k < |input.services| ==> ServiceAcceptable(input.services[k])
  }

  /** The failing paths of one service, keyed `services.<index>.<field>`. */
  function ServiceViolations(index: nat, si: ServiceInput): (vs: seq<Violation>)
    ensures vs == [] <==> ServiceAcceptable(si)
  {
    var prefix := "services." + DecimalString(index) + ".";
    (if RequiredStringOk(si.name) then [] else [Violation(prefix + "name", ServiceNameRequired)])
    + (if si.value.None? then [Violation(prefix + "value", ServiceValueRequired)]
       else if si.value.value < 0 then [Violation(prefix + "value", ServiceValueNegative)]
       else [])
    + (if si.status.None? || ParseServiceStatus(si.status.value).Some? then []
       else [Violation(prefix + "status", EnumMessage(si.status.value, "status"))])
  }

  /** The failing paths of the services from position `from` on. */
  function AllServiceViolations(sis: seq<ServiceInput>, from: nat): (vs: seq<Violation>)
    ensures vs == [] <==> forall k :: 0 <= k < |sis| ==> ServiceAcceptable(sis[k])
  {
    if sis == [] then []
    else
      var rest := AllServiceViolations(sis[1..], from + 1);
      assert forall k :: 1 <= k < |sis| ==> sis[k] == sis[1..][k - 1];
      ServiceViolations(from, sis[0]) + rest
  }

  /** Every failing schema path of an order, in schema order. */
  function Violations(input: OrderInput): (vs: seq<Violation>)
    ensures vs == [] <==> SchemaAcceptable(input)
  {
    (if RequiredStringOk(input.lab) then [] else [Violation("lab", LabRequired)])
    + (if RequiredStringOk(input.patient) then [] else [Violation("patient", PatientRequired)])
    + (if RequiredStringOk(input.customer) then [] else [Violation("customer", CustomerRequired)])
    + (if |input.services| == 0 then [Violation("services", ServicesEmpty)]
       else AllServiceViolations(input.services, 0))
  }

  /** The stored form of one accepted service: name trimmed, status defaulting to PENDING. */
  function CastService(si: ServiceInput): Service {
    Service(CastString(si.name), si.value.GetOr(0), ParseServiceStatus(si.status.GetOr("PENDING")).GetOr(PENDING))
  }

  function CastServices(sis: seq<ServiceInput>): (ss: seq<Service>) {
    seq(|sis|, k requires 0 <= k < |sis| => CastService(sis[k]))
  }

  /** What a stored service satisfies. */
  predicate ValidService(s: Service) {
    s.name == Trim(s.name) && s.name != "" && s.value >= 0
  }

  /** What every stored order satisfies: the schema rules and the pre-save guard. */
  predicate ValidOrder(o: Order) {
    && o.lab == Trim(o.lab) && o.lab != ""
    && o.patient == Trim(o.patient) && o.patient != ""
    && o.customer == Trim(o.customer) && o.customer != ""
    && |o.services| > 0
    && (forall k :: 0 <= k < |o.services| ==> ValidService(o.services[k]))
    && TotalValue(o.services) > 0
  }

  /** An input the whole of `Order.create` accepts: schema rules plus a positive total. */
  predicate Acceptable(input: OrderInput) {
    SchemaAcceptable(input) && TotalValue(CastServices(input.services)) > 0
  }

  /**
   * `Order.create({lab, patient, customer, services, createdBy})`: validate,
   * run the pre-save total guard, then store with the defaults
   * `state = CREATED` and `status = ACTIVE`.
   */
  function Create(input: OrderInput, owner: UserId, id: ObjectId, now: nat): (r: Result<Order, CreateError>)
    ensures r.Success? <==> Acceptable(input)
    ensures r.Failure? && r.error.Invalid? <==> !SchemaAcceptable(input)
    ensures r.Failure? && r.error.Invalid? ==> r.error.violations != []
    ensures r.Failure? && r.error.HookFailed? ==> r.error.message == TotalNotPositive
    ensures r.Success? ==>
      && ValidOrder(r.value)
      && r.value.id == id && r.value.createdBy == owner && r.value.createdAt == now
      && r.value.state == CREATED && r.value.status == ACTIVE
      && r.value.lab == Trim(input.lab.value)
      && r.value.patient == Trim(input.patient.value)
      && r.value.customer == Trim(input.customer.value)
      && |r.value.services| == |input.services|
      && (forall k :: 0 <= k < |input.services| ==>
            r.value.services[k].name == Trim(input.services[k].name.value)
            && r.value.services[k].value == input.services[k].value.value
            && (input.services[k].status.None? ==> r.value.services[k].status == PENDING)
            && (input.services[k].status.Some? ==>
                  Some(r.value.services[k].status) == ParseServiceStatus(input.services[k].status.value)))
  {
    var vs := Violations(input);
    if vs != [] then Failure(Invalid(vs))
    else
      var services := CastServices(input.services);
      if TotalValue(services) <= 0 then Failure(HookFailed(TotalNotPositive))
      else
        var o := Order(id, CastString(input.lab), CastString(input.patient), CastString(input.customer),
                       CREATED, ACTIVE, services, owner, now);
        CreatedOrderIsValid(input, o);
        Success(o)
  }

  lemma CreatedOrderIsValid(input: OrderInput, o: Order)
    requires SchemaAcceptable(input)
    requires o.lab == CastString(input.lab) && o.patient == CastString(input.patient)
    requires o.customer == CastString(input.customer)
    requires o.services == CastServices(input.services) && TotalValue(o.services) > 0
    ensures ValidOrder(o)
  {
    TrimIdempotent(input.lab.value);
    TrimIdempotent(input.patient.value);
    TrimIdempotent(input.customer.value);
    forall k | 0 <= k < |o.services| ensures ValidService(o.services[k]) {
      TrimIdempotent(input.services[k].name.value);
    }
  }

  /** Only the state moves on an advance, so the re-validation on save passes again. */
  lemma AdvanceKeepsValid(o: Order, next: OrderState)
    requires ValidOrder(o)
    ensures ValidOrder(o.(state := next))
  {
  }

  /** A blank required string is refused whatever else the order holds. */
  lemma BlankLabRejected(input: OrderInput, owner: UserId, id: ObjectId, now: nat)
    requires input.lab.Some? && AllWhitespace(input.lab.value)
    ensures Create(input, owner, id, now) == Failure(Invalid(Violations(input)))
    ensures Violations(input)[0] == Violation("lab", LabRequired)
  {
    TrimEmptyIffBlank(input.lab.value);
  }

  /** An order without services is refused with the array validator's message. */
  lemma EmptyServicesRejected(input: OrderInput, owner: UserId, id: ObjectId, now: nat)
    requires input.services == []
    ensures Create(input, owner, id, now).Failure? && Create(input, owner, id, now).error.Invalid?
    ensures Violation("services", ServicesEmpty) in Create(input, owner, id, now).error.violations
  {
    var vs := Violations(input);
    assert vs[|vs| - 1] == Violation("services", ServicesEmpty);
  }

  /** A negative service value is refused, reported on that service's `value` path. */
  lemma NegativeValueRejected(input: OrderInput, owner: UserId, id: ObjectId, now: nat, k: nat)
    requires k < |input.services|
    requires input.services[k].value.Some? && input.services[k].value.value < 0
    ensures Create(input, owner, id, now).Failure? && Create(input, owner, id, now).error.Invalid?
    ensures Violation("services." + DecimalString(k) + ".value", ServiceValueNegative)
            in Create(input, owner, id, now).error.violations
  {
    var sis := input.services;
    var v := Violation("services." + DecimalString(k) + ".value", ServiceValueNegative);
    var prefix := "services." + DecimalString(k) + ".";
    assert v == Violation(prefix + "value", ServiceValueNegative);
    var a := if RequiredStringOk(sis[k].name) then [] else [Violation(prefix + "name", ServiceNameRequired)];
    var c := if sis[k].status.None? || ParseServiceStatus(sis[k].status.value).Some? then []
             else [Violation(prefix + "status", EnumMessage(sis[k].status.value, "status"))];
    assert ServiceViolations(0 + k, sis[k]) == a + [v] + c;
    assert (a + [v] + c)[|a|] == v;
    AllServiceViolationsContain(sis, 0, k, v);
    var vs := Violations(input);
    assert vs[|vs| - |AllServiceViolations(sis, 0)|..] == AllServiceViolations(sis, 0);
  }

  lemma {:induction false} AllServiceViolationsContain(sis: seq<ServiceInput>, from: nat, k: nat, v: Violation)
    requires k < |sis| && v in ServiceViolations(from + k, sis[k])
    ensures v in AllServiceViolations(sis, from)
    decreases k
  {
    if k > 0 {
      assert sis[1..][k - 1] == sis[k];
      AllServiceViolationsContain(sis[1..], from + 1, k - 1, v);
    }
  }

  /** A value of 0 passes a service's own rules: only the order's total must be positive. */
  lemma ZeroValueAllowed(index: nat, si: ServiceInput)
    requires RequiredStringOk(si.name) && si.value == Some(0) && si.status.None?
    ensures ServiceViolations(index, si) == []
  {
  }

  /** Services that pass the schema but are all worth 0 are stopped by the pre-save guard. */
  lemma AllZeroFailsHook(input: OrderInput, owner: UserId, id: ObjectId, now: nat)
    requires SchemaAcceptable(input)
    requires forall k :: 0 <= k < |input.services| ==> input.services[k].value == Some(0)
    ensures Create(input, owner, id, now) == Failure(HookFailed(TotalNotPositive))
  {
    var services := CastServices(input.services);
    TotalPositiveIff(services);
    assert Violations(input) == [];
  }

  /** The total of 80, 25 and 45 is 150. */
  lemma TotalExample()
    ensures TotalValue([Service("Hemograma", 80, PENDING), Service("Glicemia", 25, PENDING),
                        Service("Colesterol", 45, PENDING)]) == 150
  {
    var ss := [Service("Hemograma", 80, PENDING), Service("Glicemia", 25, PENDING), Service("Colesterol", 45, PENDING)];
    assert ss[1..][1..] == [Service("Colesterol", 45, PENDING)];
    assert FoldValues(0, ss) == FoldValues(80, ss[1..]) == FoldValues(105, ss[1..][1..]) == 150;
  }

  /** The ValidationError message Mongoose composes from the failing paths. */
  function RenderViolations(vs: seq<Violation>): string {
    "Order validation failed: " + JoinViolations(vs)
  }

  function JoinViolations(vs: seq<Violation>): string {
    if vs == [] then ""
    else if |vs| == 1 then vs[0].path + ": " + vs[0].message
    else vs[0].path + ": " + vs[0].message + ", " + JoinViolations(vs[1..])
  }

  // ---------------------------------------------------------------- JSON form

  /** The 24 lower-case hexadecimal digits of an identifier, as `_id.toString()` gives them. */
  function IdString(id: ObjectId): string {
    Hex(id.n, 24)
  }

  /** Identifiers that fit in 96 bits get distinct strings. */
  lemma IdStringInjective(a: ObjectId, b: ObjectId)
    requires a.n < Pow16(24) && b.n < Pow16(24)
    ensures IdString(a) == IdString(b) ==> a == b
  {
    ParseHexOfHex(a.n, 24);
    ParseHexOfHex(b.n, 24);
  }

  function ServiceJson(s: Service): Json {
    JObj(map["name" := JStr(s.name), "value" := JNum(s.value), "status" := JStr(ServiceStatusName(s.status))])
  }

  function ServicesJson(ss: seq<Service>): (r: seq<Json>)
    ensures |r| == |ss|
    ensures forall k :: 0 <= k < |ss| ==> r[k] == ServiceJson(ss[k])
  {
    if ss == [] then [] else [ServiceJson(ss[0])] + ServicesJson(ss[1..])
  }

  /**
   * The stored document as a plain object (what `.lean()` yields): the internal
   * `_id` and the version key `__v`, no virtuals. The version key stays 0
   * because only array rewrites bump it.
   */
  function LeanDocument(o: Order): (r: map<string, Json>)
    ensures "_id" in r && r["_id"] == JStr(IdString(o.id))
    ensures "__v" in r && r["__v"] == JNum(0)
    ensures "id" !in r && "totalValue" !in r
    ensures "createdBy" in r && r["createdBy"] == JStr(IdString(o.createdBy))
  {
    map[
      "_id" := JStr(IdString(o.id)),
      "lab" := JStr(o.lab),
      "patient" := JStr(o.patient),
      "customer" := JStr(o.customer),
      "state" := JStr(StateName(o.state)),
      "status" := JStr(StatusName(o.status)),
      "services" := JArr(ServicesJson(o.services)),
      "createdBy" := JStr(IdString(o.createdBy)),
      "createdAt" := JNum(o.createdAt),
      "__v" := JNum(0)]
  }

  /**
   * `toJSON` with `virtuals: true` and the schema's transform: the virtuals
   * `id` and `totalValue` are added, `id` is set to the string of `_id`, and
   * `_id` and `__v` are deleted.
   */
  function ToJSON(o: Order): (r: map<string, Json>)
    ensures "_id" !in r && "__v" !in r
    ensures "id" in r && r["id"] == JStr(IdString(o.id))
    ensures "totalValue" in r && r["totalValue"] == JNum(SumValues(o.services))
    ensures r.Keys == LeanDocument(o).Keys - {"_id", "__v"} + {"id", "totalValue"}
    ensures forall k :: k in LeanDocument(o) && k !in {"_id", "__v"} ==> k in r && r[k] == LeanDocument(o)[k]
  {
    var withVirtuals := LeanDocument(o)["id" := JStr(IdString(o.id))]["totalValue" := JNum(TotalValue(o.services))];
    var transformed := withVirtuals["id" := JStr(IdString(o.id))];
    transformed - {"_id", "__v"}
  }
}

=== FILE: order_routes.dfy ===
/**
 * The order routes (src/routes/orders.ts): the request gate runs before every
 * order handler, and a handler only runs when the gate calls `next`, with the
 * `userId` the gate attached.
 */
module OrderRoutes {
  import opened Wrappers
  import opened Types
  import opened Http
  import opened OrderModel
  import opened OrderController
  import opened AuthMiddleware

  /** `POST /orders`: gate, then `createOrder` as the resolved user. */
  method CreateOrderRoute(req: AuthRequest, store: OrderStore, secret: Option<string>, verify: Verifier,
                          users: seq<User>, input: OrderInput, now: nat) returns (resp: Response)
    requires store.Valid()
    modifies req, store
    ensures store.Valid()
    ensures match Decide(req.header, secret, verify, users)
      case Reject(m) =>
        resp == Fail(401, m) && store.orders == old(store.orders) && store.nextId == old(store.nextId)
      case Admit(u, _) =>
        match Create(input, u.id, ObjectId(old(store.nextId)), now)
        case Success(o) =>
          && o.createdBy == u.id
          && store.orders == old(store.orders) + [o]
          && resp.status == 201
        case Failure(_) =>
          store.orders == old(store.orders) && resp.status in {400, 500}
  {
    var gate := req.Authenticate(secret, verify, users);
    if gate.Respond? {
      return gate.response;
    }
    resp := store.CreateOrder(req.userId, input, now);
  }

  /** `GET /orders`: gate, then the owner-scoped listing. */
  method ListOrdersRoute(req: AuthRequest, store: OrderStore, secret: Option<string>, verify: Verifier,
                         users: seq<User>, q: PaginationQuery) returns (resp: Response)
    requires q.page.GetOr(1) >= 1 && q.limit.GetOr(10) >= 1
    modifies req
    ensures match Decide(req.header, secret, verify, users)
      case Reject(m) => resp == Fail(401, m)
      case Admit(u, _) => resp == GetOrders(store.orders, Some(u.id), q) && resp.status == 200
  {
    var gate := req.Authenticate(secret, verify, users);
    if gate.Respond? {
      return gate.response;
    }
    resp := GetOrders(store.orders, req.userId, q);
  }

  /** `PATCH /orders/:id/advance`: gate, then `advanceOrder`; orders of other users never change. */
  method AdvanceOrderRoute(req: AuthRequest, store: OrderStore, secret: Option<string>, verify: Verifier,
                           users: seq<User>, id: ObjectId) returns (resp: Response)
    requires store.Valid()
    modifies req, store
    ensures store.Valid()
    ensures match Decide(req.header, secret, verify, users)
      case Reject(m) => resp == Fail(401, m) && store.orders == old(store.orders)
      case Admit(u, _) =>
        && (resp, store.orders) == AdvanceEffect(old(store.orders), Some(u.id), id)
        && resp.status in {200, 400, 404}
    ensures |store.orders| == |old(store.orders)|
    ensures forall j :: 0 <= j < |store.orders| && (req.userId.None? || old(store.orders)[j].createdBy != req.userId.value) ==>
              store.orders[j] == old(store.orders)[j]
  {
    var gate := req.Authenticate(secret, verify, users);
    if gate.Respond? {
      return gate.response;
    }
    resp := store.AdvanceOrder(req.userId, id);
  }
}

=== FILE: types.dfy ===
/**
 * The shared vocabulary of the backend: order workflow states, the soft-delete
 * status, service and order records, users, pagination metadata and the
 * application error class (src/types/index.ts).
 */
module Types {
  import opened Wrappers

  /** Workflow stage of an order. */
  datatype OrderState = CREATED | ANALYSIS | COMPLETED

  /** Soft-delete flag of an order. */
  datatype OrderStatus = ACTIVE | DELETED

  /** Progress flag of one service inside an order. */
  datatype ServiceStatus = PENDING | DONE

  /** A document identifier; the store hands them out in increasing order. */
  datatype ObjectId = ObjectId(n: nat)

  type UserId = ObjectId

  /** One service line of an order, as stored (name already trimmed). */
  datatype Service = Service(name: string, value: int, status: ServiceStatus)

  /**
   * A stored order. `createdAt` is a natural-number creation stamp standing
   * for the store-managed timestamp.
   */
  datatype Order = Order(
    id: ObjectId,
    lab: string,
    patient: string,
    customer: string,
    state: OrderState,
    status: OrderStatus,
    services: seq<Service>,
    createdBy: UserId,
    createdAt: nat)

  /** A stored user; `digest` is the one-way hash of the password. */
  datatype User = User(id: UserId, email: string, digest: string)

  /** What a user lookup searches by: `findById` or `findOne({email})`. */
  datatype UserKey = ById(id: UserId) | ByEmail(email: string)

  predicate HasKey(u: User, key: UserKey) {
    match key
    case ById(id) => u.id == id
    case ByEmail(email) => u.email == email
  }

  /** The first stored user with that key, if any. */
  function FindUserBy(users: seq<User>, key: UserKey): (r: Option<User>)
    ensures r.Some? ==> r.value in users && HasKey(r.value, key)
    ensures r.None? ==> forall u :: u in users ==> !HasKey(u, key)
  {
    if users == [] then None
    else if HasKey(users[0], key) then Some(users[0])
    else FindUserBy(users[1..], key)
  }

  /** The `page`, `limit` and `state` query parameters, already parsed. */
  datatype PaginationQuery = PaginationQuery(page: Option<int>, limit: Option<int>, state: Option<string>)

  /** Pagination metadata returned beside a page of results. */
  datatype Pagination = Pagination(page: int, limit: int, total: nat, totalPages: nat)

  /** The wire names of the enumerations. */
  function StateName(s: OrderState): string {
    match s
    case CREATED => "CREATED"
    case ANALYSIS => "ANALYSIS"
    case COMPLETED => "COMPLETED"
  }

  function StatusName(s: OrderStatus): string {
    match s
    case ACTIVE => "ACTIVE"
    case DELETED => "DELETED"
  }

  function ServiceStatusName(s: ServiceStatus): string {
    match s
    case PENDING => "PENDING"
    case DONE => "DONE"
  }

  /** Parsing a wire name back: exactly the three state names are recognised. */
  function ParseState(name: string): (r: Option<OrderState>)
    ensures r.Some? ==> StateName(r.value) == name
    ensures forall s: OrderState :: StateName(s) == name ==> r == Some(s)
  {
    if name == "CREATED" then Some(CREATED)
    else if name == "ANALYSIS" then Some(ANALYSIS)
    else if name == "COMPLETED" then Some(COMPLETED)
    else None
  }

  /** Parsing a service status name; `None` for anything but the two enum values. */
  function ParseServiceStatus(name: string): (r: Option<ServiceStatus>)
    ensures r.Some? ==> ServiceStatusName(r.value) == name
    ensures forall s: ServiceStatus :: ServiceStatusName(s) == name ==> r == Some(s)
  {
    if name == "PENDING" then Some(PENDING)
    else if name == "DONE" then Some(DONE)
    else None
  }

  /** `AppError` of this file: a message and an HTTP status, named "AppError". */
  datatype AppError = AppError(message: string, statusCode: nat) {
    function Name(): string { "AppError" }
  }

  /** `new AppError(message, statusCode?)`: the status defaults to 400. */
  function NewAppError(message: string, statusCode: Option<nat>): (e: AppError)
    ensures e.message == message && e.Name() == "AppError"
    ensures statusCode.None? ==> e.statusCode == 400
    ensures statusCode.Some? ==> e.statusCode == statusCode.value
  {
    AppError(message, statusCode.GetOr(400))
  }
}

=== FILE: wrappers.dfy ===
/** Option and Result, the two failure-carrying shapes the rest of the model uses. */
module Wrappers {

  datatype Option<+T> = None | Some(value: T) {
    /** The value, or `default` when there is none (JavaScript's `x ?? default`). */
    function GetOr(default: T): T {
      match this
      case Some(v) => v
      case None => default
    }
  }

  datatype Result<+T, +E> = Success(value: T) | Failure(error: E)
}
